=== FILE: README.md ===
# veggiemap refresh, modelled in Dafny

`refresh.py` builds the data file of the veggiemap. It asks a list of
Overpass API servers, one after another, for every OpenStreetMap node and way
tagged `diet:vegan` or `diet:vegetarian`. It turns each element that has a
position into one `L.marker(...)` line of JavaScript. That line carries an
icon chosen from an ordered rule table, a title, a category and an HTML
popup. The script counts the markers of each of the five categories and
writes everything to a temporary file. The temporary file replaces the data
file only when it is larger than 250 bytes, and the previous data file is kept
as the old file.

The model follows the script's own structure:

| module | file | models |
|---|---|---|
| `Text` | text.dfy | `s.split(sep)[0]`, `s.replace(old, new)`, `%s` of an integer |
| `Html` | html.dfy | `html.escape` (per character, and as its chain of five replacements) and the part of `html.unescape` that undoes it |
| `Utf8` | utf8.dfy | the UTF-8 bytes of the written text, so that a file's size is its byte count |
| `Elements` | elements.dfy | the decoded elements: tags, coordinates and the position a node or way has |
| `Icons` | icons.dfy | `ICON_MAPPING` and `determine_icon` (a loop with `break`) |
| `Categories` | categories.dfy | the five-way category decision and the five counters |
| `Fetch` | fetch.dfy | `get_data_osm`: the server loop, its statuses and pauses |
| `Markers` | markers.dfy | name, title, popup sections and the marker line of one element |
| `Writer` | writer.dfy | `write_data`: the escaping loop, the element loop and the file's lines |
| `Rotation` | rotation.dfy | `check_data` on a `Disk` object holding the three files, and `main` (`Refresh`) |
| `Scenarios` | scenarios.dfy | a vegan-only cafe followed from its tags to its marker line |

The imperative parts stay imperative:

- `Icons.DetermineIcon` is the table loop, which stops at the first rule that applies. It takes the table as a parameter; the element loop passes it `IconMapping`.
- `Fetch.GetDataOsm` is the `while` loop over the servers.
- `Writer.EscapeTags` is the in-place escaping loop over the tag keys.
- `Writer.WriteData` is the element loop with its five counters.
- `Rotation.Disk` is an object whose `files` map the methods `Write`, `Rename` and `CheckData` update.

Each method is proved against a specification function:

- `IconFrom`, `Trace` and `Fetched` for the icon table and the fetch;
- `EscapeValues`, `Render` and `Document` for the data file;
- `Rotated` and `Outcome` for the file rotation and the whole run.

The lemmas state the properties the script relies on.

The body of the element loop in `write_data` is written as its own method,
`Writer.WriteMarker`. That method escapes the tags, resolves the position,
picks the icon, the title and the category, and builds the popup and the
line. `Writer.WriteData` keeps the loop, bumps one of its five counters and
appends the line.

## Model

| member | source | states |
|---|---|---|
| Text.Replace | refresh.py:204 | definition of `str.replace`: scan left to right, replace each non-overlapping occurrence |
| Text.BeforeFirst | refresh.py:106 | the result is a prefix of the value without `;`, and it stops exactly at the first `;` when there is one |
| Text.ReplacePairRemovesIt | refresh.py:284 | after replacing a two-character pattern by a non-empty text holding neither of its characters, the pattern occurs nowhere |
| Text.Decimal | refresh.py:290 | the decimal rendering of a count is a non-empty string of digits |
| Text.DecimalNoLeadingZero | refresh.py:290 | the rendering of zero is `0`, and that of any other count has no leading zero |
| Text.DecimalRoundTrip | refresh.py:290 | reading the decimal rendering back gives the count |
| Html.EscapeChar | refresh.py:178 | definition: the entity `html.escape` writes for `&`, `<`, `>`, `"` and `'`; any other character stays |
| Html.Escape | refresh.py:178 | the escaped value is at least as long as the original and holds no `<`, `>`, `"` or `'` |
| Html.EscapeAgreesWithReplaceChain | refresh.py:178 | per-character escaping equals the five replacements `&`, `<`, `>`, `"`, `'` applied in that order |
| Html.Unescape | refresh.py:202 | definition of `html.unescape` on the five entities `&amp;`, `&lt;`, `&gt;`, `&quot;`, `&#x27;` |
| Html.UnescapeAfterPlain | refresh.py:202 | text without `&` passes through unescaping unchanged, and what follows it is unescaped as on its own |
| Html.UnescapeEscape | refresh.py:202 | unescaping an escaped value gives back the original value |
| Html.EscapeInjective | refresh.py:178 | two values with the same escaping are equal |
| Html.EscapePlain | refresh.py:178 | a value without `&`, `<`, `>`, `"` or `'` escapes to itself |
| Html.EscapedEqualsPlain | refresh.py:211-225 | an escaped value equals a word without special characters exactly when the raw value does |
| Utf8.EncodeChar | refresh.py:166 | a character takes one to four bytes, one exactly when it is ASCII |
| Utf8.Encode | refresh.py:297 | a text takes at least one byte per character, exactly one per character when all are ASCII |
| Utf8.EncodeConcat | refresh.py:166-290 | the bytes of text written piece by piece are the pieces' bytes in order |
| Elements.Get | refresh.py:211-225 | definition: `tags.get(key, '')`, the value or the empty string |
| Elements.EscapeValues | refresh.py:175-178 | definition: every tag value escaped, keys unchanged |
| Elements.Falsy | refresh.py:189 | definition: `not lat`, a missing or zero coordinate |
| Elements.Position | refresh.py:180-190 | an element has no position exactly when its lat or lon (a node's own, a way's center's) is missing or zero; otherwise the position is a node's own lat/lon, or a way's center's lat/lon, neither zero |
| Icons.IconMapping | refresh.py:40-93 | the icon table: every `key:value` rule with its marker id and glyph, in the listed order |
| Icons.DefaultIcon | refresh.py:98 | definition: `maki_star-stroked` with an empty glyph |
| Icons.Matches | refresh.py:100-108 | definition: the rule's key is present with a non-empty value whose text before the first `;` is the rule's value |
| Icons.FirstMatch | refresh.py:99-110 | the index found is of an applicable rule and no earlier rule applies; none is found only when no rule applies |
| Icons.IconFrom | refresh.py:98-111 | definition: the icon of the first applicable rule, the default `maki_star-stroked` with an empty glyph otherwise |
| Icons.DetermineIcon | refresh.py:96-111 | the loop returns the icon of the first applicable rule in table order, or the default `maki_star-stroked` icon with an empty glyph; any other icon belongs to an applicable rule |
| Icons.IconFor | refresh.py:192 | definition: the icon `determine_icon` picks from the icon table |
| Icons.IconIsEarliestRule | refresh.py:99-110 | when rule `i` applies and no earlier one does, its icon is chosen, whatever later rules apply |
| Icons.FirstFieldDecides | refresh.py:106 | only the first `;`-separated field of a value is compared |
| Icons.PizzaBeforeBar | refresh.py:40-110 | a pizzeria that is also a bar gets the pizza icon, the first rule of the table |
| Categories.Name | refresh.py:211-225 | definition: the category names `vegan_only`, `vegetarian_only`, `vegan_friendly`, `vegan_limited`, `vegetarian_friendly` |
| Categories.NoCounts | refresh.py:160-164 | definition: the five counters start at zero |
| Categories.Classify | refresh.py:211-226 | one `iff` per category: vegan only, vegetarian only (with vegan yes), vegan friendly, vegan limited, and vegetarian friendly for every other `diet:vegan` value |
| Categories.Counts.Bump | refresh.py:211-226 | a marker bumps its category's counter by one, leaves the other four alone, and adds one to the total |
| Fetch.Servers | refresh.py:20-28 | definition: the seven Overpass servers, in the order they are tried |
| Fetch.Query | refresh.py:121-124 | definition: the query appended to each server's address |
| Fetch.Cooldown | refresh.py:139-149 | a pause follows exactly statuses 400, 429 and 504: 5 seconds after 400, 60 after 429, 600 after 504 |
| Fetch.Step | refresh.py:133-149 | definition: asking one server is its request, then the pause its status calls for |
| Fetch.FirstOk | refresh.py:127-138 | the index of the first answer with status 200; no earlier answer has 200 |
| Fetch.Trace | refresh.py:127-152 | definition: the events of asking the first `n` servers, one step each, in order |
| Fetch.Attempts | refresh.py:127-152 | when some server answers 200, exactly the servers up to and including the first such one are asked; otherwise all of them |
| Fetch.Fetched | refresh.py:127-154 | definition: the elements of the first 200 answer, none when there is none |
| Fetch.GetDataOsm | refresh.py:114-154 | the result is absent exactly when no server answers 200, otherwise it is the first 200 answer's elements; the log is one request per server asked, each followed by its pause |
| Fetch.RequestsConcat | refresh.py:127-152 | the requests of two logs in a row are the first's followed by the second's |
| Fetch.StepRequestsOne | refresh.py:129-133 | asking one server is exactly one request to it |
| Fetch.SendsQuery | refresh.py:133 | definition: every request of a log asks for its server's address followed by the query |
| Fetch.EveryRequestSendsQuery | refresh.py:127-133 | every server asked is sent its address followed by the same query |
| Fetch.TraceStepAsksOne | refresh.py:127-138 | each further server asked adds exactly that server to the requests |
| Fetch.ServersAskedInOrder | refresh.py:127-152 | the servers are asked in list order, each at most once |
| Fetch.SleptConcat | refresh.py:139-147 | the pauses of two logs in a row add up |
| Fetch.StepSleepsAtMost600 | refresh.py:139-147 | one server costs at most a 600-second pause |
| Fetch.TraceStepSleepsAtMost600 | refresh.py:139-147 | each further server asked adds at most 600 seconds of pause |
| Fetch.SleepIsBounded | refresh.py:139-147 | asking `n` servers pauses at most 600 seconds per server |
| Fetch.FetchSleepIsBounded | refresh.py:127-152 | a whole fetch pauses at most 4200 seconds |
| Fetch.RateLimitedThenOk | refresh.py:127-152 | first server 429, second 200: the result is the second answer, and the 60-second pause comes before the second request |
| Fetch.AllFail | refresh.py:127-154 | when no server answers 200, every server is asked exactly once, in order |
| Fetch.StopsAtFirstOk | refresh.py:127-138 | when a server answers 200, the servers asked are exactly those up to and including it, in list order |
| Markers.DisplayName | refresh.py:194-206 | definition: glyph and name for a named element, else glyph, type and id |
| Markers.Title | refresh.py:199-207 | definition: for a named element the unescaped name with `"` replaced by `”`, else the display name |
| Markers.TitleRestoresName | refresh.py:194-204 | for a named element the popup name is the glyph and the escaped name, and the title is the glyph and the original name with every `"` turned into `”` |
| Markers.TitleHasNoDoubleQuote | refresh.py:194-207 | no title contains `"`, named or not |
| Markers.Section | refresh.py:233 | definition: the `popupflex-container` line of an emoji and a body, shared by the sections at lines 233, 248, 258, 267, 276 and 285 |
| Markers.Heading | refresh.py:229 | definition: the bold name and the link to the element on openstreetmap.org |
| Markers.CuisineSection | refresh.py:232-233 | the cuisine section is present exactly when a cuisine tag is |
| Markers.AddLine | refresh.py:240-246 | definition: add `<br/>` when the address so far is non-empty, then the part |
| Markers.Address | refresh.py:235-246 | definition: street with house number, city and country, each present one added after `<br/>` when text is already there |
| Markers.JoinSnoc | refresh.py:236-246 | adding one more part appends the separator and the part |
| Markers.AddLineJoins | refresh.py:239-246 | appending a non-empty part with `<br/>` only after existing text joins one more part, and the block is then non-empty |
| Markers.AddressJoinsParts | refresh.py:235-248 | when the city and country values present are non-empty, the address block is street with house number, city and country, those present, joined by `<br/>`, and it is empty exactly when none is present |
| Markers.AddressSection | refresh.py:247-248 | the address section is present exactly when the address block is non-empty |
| Markers.Contact | refresh.py:251-274 | a `contact:` tag wins over the plain tag; the plain tag is used only without it; neither gives the empty value |
| Markers.WebsiteText | refresh.py:257 | definition: the website address with every `https://` removed |
| Markers.WebsiteTextDropsScheme | refresh.py:257 | for an address that does not itself contain `https://`, the shown text of `https://` plus that address is the address, and the address alone is shown as is |
| Markers.WebsiteSection | refresh.py:251-258 | the website section is present exactly when the chosen value is non-empty; the chosen value is `contact:website` when that tag is present (even empty), else `website`, else empty |
| Markers.EmailSection | refresh.py:260-267 | the e-mail section is present exactly when the chosen value is non-empty; the chosen value is `contact:email` when that tag is present (even empty), else `email`, else empty |
| Markers.PhoneSection | refresh.py:269-276 | the phone section is present exactly when the chosen value is non-empty; the chosen value is `contact:phone` when that tag is present (even empty), else `phone`, else empty |
| Markers.OpeningHours | refresh.py:279-284 | the shown opening hours contain no `\n`, no `\r` and no `"; "` |
| Markers.OpeningHoursBreaksEntries | refresh.py:282-284 | for an entry without `;`, `\n` or `\r`, the `"; "` after it becomes `<br/>` and the entry is kept as it is |
| Markers.HoursSection | refresh.py:279-285 | the opening-hours section is present exactly when the tag is |
| Markers.Popup | refresh.py:229-285 | definition: the heading, then the cuisine, address, website, e-mail, phone and opening-hours sections in that order |
| Markers.MarkerLine | refresh.py:287 | definition: the `L.marker(...)` line with position, title, icon id, category and popup |
| Markers.BarePopup | refresh.py:229-285 | without any optional tag the popup is the heading alone |
| Markers.ClassifyIgnoresEscaping | refresh.py:175-226 | classifying the escaped tags gives the category of the raw tags |
| Markers.EscapedGet | refresh.py:211-221 | an escaped tag equals a plain word exactly when the raw tag does |
| Markers.Render | refresh.py:170-287 | definition: the loop body for one element, from escaped tags to category and marker line, none without a position |
| Markers.MarkerExactlyWhenPlaced | refresh.py:180-226 | an element gets a marker exactly when it has a position, and the marker's category is that of its raw tags |
| Writer.Header | refresh.py:167-168 | definition: the time stamp comment and the opening of `veggiemap_populate` |
| Writer.MarkerLines | refresh.py:170-287 | definition: the marker lines of the elements, in order, none for a skipped element |
| Writer.Tally | refresh.py:158-226 | definition: the five counters after the elements, one bump per marker |
| Writer.Footer | refresh.py:289-290 | definition: the closing brace and the `numbers` object with the five counts |
| Writer.Document | refresh.py:164-290 | definition: header, marker lines, footer |
| Writer.EscapeTags | refresh.py:175-178 | after the loop every tag value is escaped and the keys are unchanged, whatever order the keys are visited in |
| Writer.WriteMarker | refresh.py:170-287 | the loop body for one element yields exactly that element's marker, or none when it is skipped |
| Writer.WriteData | refresh.py:157-290 | the lines are the header, one marker line per placed element in order, and the footer with the five counts of those markers |
| Writer.MarkerLinesStep | refresh.py:168-287 | one more element appends its own line (or none) after the marker lines of the elements before it |
| Writer.LinesStep | refresh.py:168-287 | one more element adds its marker line after the lines so far, or nothing when it has no marker |
| Writer.TallyBumps | refresh.py:168-226 | one more element bumps the tally of its marker's category, or leaves the tally alone when it has no marker |
| Writer.TallyStep | refresh.py:208-226 | with the five counters equal to the tally so far, one more element raises exactly the counter of its marker's category by one, or none when it has no marker |
| Writer.BumpOneCounter | refresh.py:208-226 | bumping a category raises that category's counter by one and leaves the other four as they are |
| Writer.CountsMatchMarkers | refresh.py:160-290 | the five counts add up to the number of marker lines |
| Writer.SkippedElementLeavesNoTrace | refresh.py:189-190 | an element without a position adds no line and changes no count |
| Writer.RenderedElementAddsOneMarker | refresh.py:189-287 | an element with a position adds exactly one line at the end and bumps the counter of the category its raw diet tags decide |
| Rotation.MinSize | refresh.py:297 | definition: the 250-byte threshold |
| Rotation.Acceptable | refresh.py:296-297 | definition: the temporary file exists and is larger than 250 bytes |
| Rotation.FileText | refresh.py:166-290 | definition: the text of lines written one after another, each ended by a newline |
| Rotation.DataBytes | refresh.py:166-290 | definition: the UTF-8 bytes `write_data` leaves in the temporary file |
| Rotation.Written | refresh.py:314-315 | definition: the files after the fetch and, when it succeeded, the write of the temporary file |
| Rotation.Rotated | refresh.py:293-305 | definition: the files after `check_data`, rotated exactly when the temporary file exists and is over 250 bytes |
| Rotation.Outcome | refresh.py:308-318 | definition: the files after `main`, unchanged when the fetch fails |
| Rotation.Renamed | refresh.py:299-300 | after a rename the target holds the source's bytes, the source is gone, and every other file is unchanged |
| Rotation.Disk.Write | refresh.py:166-290 | writing the temporary file replaces its content and nothing else |
| Rotation.Disk.Rename | refresh.py:299-300 | `os.rename` changes the files as `Renamed` says |
| Rotation.Disk.CheckData | refresh.py:293-305 | the files become `Rotated` of the old files: promotion exactly when the temporary file exists and is larger than 250 bytes |
| Rotation.Refresh | refresh.py:308-318 | the files become `Outcome`: unchanged when the fetch fails, otherwise the new temporary file, rotated in when acceptable; the log is the fetch's |
| Rotation.FileTextConcat | refresh.py:166-290 | the text of lines written one after another is the texts in order |
| Rotation.FileTextSize | refresh.py:166-290 | a file of lines is as long as its lines plus one newline each |
| Rotation.TextSizeStep | refresh.py:166-290 | one more line adds its length and one newline |
| Rotation.TextSizeConcat | refresh.py:166-290 | the size of two runs of lines adds up |
| Rotation.HeaderSize | refresh.py:167-168 | the header takes 52 characters besides the time stamp |
| Rotation.FooterSize | refresh.py:289-290 | the footer takes 121 characters besides the five counts' digits |
| Rotation.AllAsciiConcat | refresh.py:166-290 | joining two ASCII texts gives an ASCII text |
| Rotation.FileTextAscii | refresh.py:166-290 | a file of ASCII lines is ASCII |
| Rotation.DecimalAscii | refresh.py:290 | a count is written in ASCII digits |
| Rotation.FooterAscii | refresh.py:289-290 | every footer line is ASCII |
| Rotation.EmptyRunText | refresh.py:166-290 | a run without markers writes 178 characters besides the time stamp |
| Rotation.EmptyRunAscii | refresh.py:166-290 | with an ASCII time stamp, the text of a run without markers is ASCII |
| Rotation.EmptyRunSize | refresh.py:166-297 | with an ASCII time stamp, data that yields no marker makes a temporary file of 178 bytes plus the time stamp |
| Rotation.NoMarkersDocument | refresh.py:158-290 | data without markers gives the header and the footer with five zero counts |
| Rotation.NoMarkersNoCounts | refresh.py:158-226 | when no element yields a marker, all five counters stay at zero |
| Rotation.MarkerLineIsLong | refresh.py:287 | every marker line is at least 88 characters long |
| Rotation.MarkerLinesAreLong | refresh.py:170-287 | any marker at all adds at least 89 characters to the file |
| Rotation.MarkersMakeLargeFile | refresh.py:166-297 | a run with at least one marker writes more than 250 bytes, whatever the time stamp |
| Rotation.RotationIsAllOrNothing | refresh.py:296-305 | `check_data` either changes nothing, exactly when the temporary file is missing or too small, or leaves only the data file (the former temporary file) and the old file (the former data file) |
| Rotation.RefreshKeepsDataHealthy | refresh.py:296-318 | a run never puts a file of 250 bytes or less in place of the data file, and whenever it replaces the data file it keeps the previous one as the old file |
| Rotation.FailedFetchChangesNothing | refresh.py:314-318 | when no server answers 200, no file is written or renamed |
| Rotation.RotatesExactlyWithMarkers | refresh.py:166-305 | with a time stamp of at most 72 ASCII characters, a successful fetch replaces the data file exactly when its data yields at least one marker |
| Scenarios.CafeTagsEscapeToThemselves | refresh.py:175-178 | escaping leaves a cafe's plain tags unchanged |
| Scenarios.PlainTagsEscapeToThemselves | refresh.py:175-178 | tags whose values hold no special character are unchanged by the escaping loop |
| Scenarios.CafeIcon | refresh.py:96-111 | the scenario's cafe (tags `diet:vegan=only`, `name`, `amenity=cafe` and no other) gets the `cafe` icon and the `☕` glyph |
| Scenarios.CafeRuleIsFirst | refresh.py:42-46 | the pizza, bar and barbecue rules do not apply to the cafe, and the cafe rule does |
| Scenarios.CafeTitle | refresh.py:194-204 | for a name without `&`, `<`, `>`, `"` or `'`, the scenario cafe's title and popup name are `☕` and its name |
| Scenarios.CafeIsVeganOnly | refresh.py:211-213 | `diet:vegan=only` gives the vegan-only category |
| Scenarios.GreenCafeMarker | refresh.py:170-287 | the node with `diet:vegan=only`, `amenity=cafe`, a name and lat/lon 52.5/13.4 is written as a vegan-only marker at `52.5,13.4`, with the `cafe` icon, its name as title and its name heading the popup, for a name without `&`, `<`, `>`, `"` or `'` |

## Left out

- The HTTP request, `json.loads` and `time.sleep` are not modelled. Each server's answer is a parameter: its status and, for 200, its decoded `elements`. The pauses are recorded as events in a log.
- A 200 answer whose JSON body is `null` does not stop the source's loop. The model takes every 200 answer as carrying elements.
- A missing `elements`, `id` or `type` key raises in the source. The model's elements always carry them.
- The time stamp `datetime.datetime.now()` is the parameter `stamp`.
- Latitude and longitude are floats in the source. The model keeps the text `%s` prints for each and whether it is zero, which is the only falsy number.
- `html.unescape` is modelled only for the five entities `html.escape` produces. The title is only ever made from an escaped name behind a glyph without `&`.
- The `kv.split(":")` of the icon keys is not modelled. The table holds each rule already split into key and value.
- Python's dictionary order for `ICON_MAPPING` is taken as the insertion order, and the table is a sequence.
- A way without `center` raises `AttributeError` in the source and ends the run before `check_data`. The model skips such a way, as it skips a missing coordinate.
- An element whose type is neither node nor way is not modelled: in the source it reuses the previous element's coordinates, or, as the first element, raises `UnboundLocalError` at `if not lat`. Element kinds are limited to node and way.
- Writing the file with `open(..., 'w')` assumes a UTF-8 locale. Crashes during a write, partial files and other I/O errors are not modelled.
- Rotation.Disk.CheckData: the source's `os.rename` of a missing data file raises. The model requires the data file to exist whenever the rotation would happen.
- Rotation.Refresh: it requires the data file to exist whenever the rotation would happen, for the same reason.
- `print` output, the module-level `main()` call and the Python version assertion are not modelled.

=== FILE: categories.dfy ===
/** The five diet categories, their names in the data file and the per-category marker counts. */
module Categories {
  import opened Elements

  datatype Category = VeganOnly | VegetarianOnly | VeganFriendly | VeganLimited | VegetarianFriendly

  /** The category an element's (escaped) tags put it in, decided in order:
      vegan only, then vegetarian only and vegan, then vegan, then limited
      vegan, and vegetarian friendly for everything else. */
  function Classify(tags: Tags): (c: Category)
    ensures c == VeganOnly <==> Get(tags, "diet:vegan") == "only"
    ensures c == VegetarianOnly <==> Get(tags, "diet:vegetarian") == "only" && Get(tags, "diet:vegan") == "yes"
    ensures c == VeganFriendly <==> Get(tags, "diet:vegan") == "yes" && Get(tags, "diet:vegetarian") != "only"
    ensures c == VeganLimited <==> Get(tags, "diet:vegan") == "limited"
    ensures c == VegetarianFriendly <==> Get(tags, "diet:vegan") !in {"only", "yes", "limited"}
  {
    if Get(tags, "diet:vegan") == "only" then VeganOnly
    else if Get(tags, "diet:vegetarian") == "only" && Get(tags, "diet:vegan") == "yes" then VegetarianOnly
    else if Get(tags, "diet:vegan") == "yes" then VeganFriendly
    else if Get(tags, "diet:vegan") == "limited" then VeganLimited
    else VegetarianFriendly
  }

  /** The name of a category in the data file: the marker group it is added
      to and the field suffix of its count. */
  function Name(c: Category): string
  {
    match c
    case VeganOnly => "vegan_only"
    case VegetarianOnly => "vegetarian_only"
    case VeganFriendly => "vegan_friendly"
    case VeganLimited => "vegan_limited"
    case VegetarianFriendly => "vegetarian_friendly"
  }

  /** The five counters `n_vegan_only` ... `n_vegetarian_friendly`. */
  datatype Counts = Counts(veganOnly: nat, vegetarianOnly: nat, veganFriendly: nat,
                           veganLimited: nat, vegetarianFriendly: nat)
  {
    function Of(c: Category): nat
    {
      match c
      case VeganOnly => veganOnly
      case VegetarianOnly => vegetarianOnly
      case VeganFriendly => veganFriendly
      case VeganLimited => veganLimited
      case VegetarianFriendly => vegetarianFriendly
    }

    function Total(): nat
    {
      veganOnly + vegetarianOnly + veganFriendly + veganLimited + vegetarianFriendly
    }

    /** One more marker of category `c`: exactly that counter goes up by one. */
    function Bump(c: Category): (r: Counts)
      ensures r.Of(c) == Of(c) + 1
      ensures forall d :: d != c ==> r.Of(d) == Of(d)
      ensures r.Total() == Total() + 1
    {
      match c
      case VeganOnly => this.(veganOnly := veganOnly + 1)
      case VegetarianOnly => this.(vegetarianOnly := vegetarianOnly + 1)
      case VeganFriendly => this.(veganFriendly := veganFriendly + 1)
      case VeganLimited => this.(veganLimited := veganLimited + 1)
      case VegetarianFriendly => this.(vegetarianFriendly := vegetarianFriendly + 1)
    }
  }

  const NoCounts := Counts(0, 0, 0, 0, 0)
}

=== FILE: elements.dfy ===
/** The OpenStreetMap elements the Overpass query returns, after `json.loads`. */
module Elements {
  import opened Wrappers
  import opened Html

  /** The `tags` object of an element: attribute name to value. */
  type Tags = map<string, string>

  /** `tags.get(key, '')`: the one accessor through which attributes are read. */
  function Get(tags: Tags, key: string): string
  {
    if key in tags then tags[key] else ""
  }

  /** Every value of `tags` HTML-escaped, keys unchanged. */
  function EscapeValues(tags: Tags): Tags
  {
    map k | k in tags :: Escape(tags[k])
  }

  /** A latitude or longitude as the JSON number it arrived as: the text
      `%s` prints for it and whether it is zero (the only falsy number). */
  datatype Coord = Coord(text: string, isZero: bool)

  /** `not lat`: a missing coordinate or a zero one. */
  predicate Falsy(c: Option<Coord>)
  {
    c.None? || c.value.isZero
  }

  /** The `center` object Overpass adds to ways (`out center`). */
  datatype Center = Center(lat: Option<Coord>, lon: Option<Coord>)

  /** The element types the query asks for. */
  datatype Kind = Node | Way

  function KindName(k: Kind): string
  {
    match k
    case Node => "node"
    case Way => "way"
  }

  /** One element of `data['elements']`; `tags` is the empty map when the
      element has none (`e.get('tags', {})`). */
  datatype Element = Element(id: nat, kind: Kind, tags: Tags,
                             lat: Option<Coord>, lon: Option<Coord>, center: Option<Center>)

  /** The coordinates of an element: its own for a node, its center's for a
      way; `None` when either is missing or zero, or a way has no center. */
  function Position(e: Element): (p: Option<(Coord, Coord)>)
    ensures p.Some? ==> !p.value.0.isZero && !p.value.1.isZero
    ensures p.None? <==>
      match e.kind
      case Node => Falsy(e.lat) || Falsy(e.lon)
      case Way => e.center.None? || Falsy(e.center.value.lat) || Falsy(e.center.value.lon)
    ensures p.Some? ==>
      match e.kind
      case Node => p.value == (e.lat.value, e.lon.value)
      case Way => p.value == (e.center.value.lat.value, e.center.value.lon.value)
  {
    var (lat, lon) :=
      match e.kind
      case Node => (e.lat, e.lon)
      case Way => if e.center.Some? then (e.center.value.lat, e.center.value.lon) else (None, None);
    if Falsy(lat) || Falsy(lon) then None else Some((lat.value, lon.value))
  }
}

=== FILE: fetch.dfy ===
/** `get_data_osm`: send the Overpass query to one server after another
    until one answers with HTTP 200, pausing after some error statuses.
    The network is replaced by one given response per server, and sleeping
    by a log of the requests and pauses in the order they happen. */
module Fetch {
  import opened Wrappers
  import opened Elements

  /** The Overpass servers, in the order they are tried. */
  const Servers: seq<string> := [
    "https://lz4.overpass-api.de/api/interpreter",
    "https://overpass.kumi.systems/api/interpreter",
    "https://z.overpass-api.de/api/interpreter",
    "http://api.openstreetmap.fr/api/interpreter",
    "http://dev.overpass-api.de/api_drolbr/interpreter",
    "http://overpass-api.de/api/interpreter",
    "http://overpass.openstreetmap.fr/api/interpreter"
  ]

  /** The query string appended to a server's address: nodes and ways with
      `diet:vegan` in yes/only/limited or `diet:vegetarian` in yes/only, as
      JSON, with the center of each way. */
  const Query: string :=
    "?data=[out:json];("
    + "node[\"diet:vegan\"~\"yes|only|limited\"];way[\"diet:vegan\"~\"yes|only|limited\"];"
    + "node[\"diet:vegetarian\"~\"yes|only\"];way[\"diet:vegetarian\"~\"yes|only\"];"
    + ");out+center;"

  /** What a server answers: the HTTP status and, for 200, the `elements`
      of the decoded JSON body. */
  datatype Response = Response(status: int, elements: seq<Element>)

  /** What the fetch does, in order: a GET of `url` (a server's address
      followed by `Query`), or a pause of some seconds. */
  datatype Event = Request(server: string, url: string) | Sleep(seconds: nat)

  /** The pause after an error status: 5 s for 400 (bad request), 60 s for
      429 (too many requests), 600 s for 504 (gateway timeout), none otherwise. */
  function Cooldown(status: int): (r: Option<nat>)
    ensures r.Some? <==> status in {400, 429, 504}
    ensures r.Some? ==> 5 <= r.value <= 600
    ensures status == 400 ==> r == Some(5)
    ensures status == 429 ==> r == Some(60)
    ensures status == 504 ==> r == Some(600)
  {
    if status == 400 then Some(5)
    else if status == 429 then Some(60)
    else if status == 504 then Some(600)
    else None
  }

  /** Asking one server: its request, then the pause its status calls for. */
  function Step(server: string, status: int): seq<Event>
  {
    match Cooldown(status)
    case Some(s) => [Request(server, server + Query), Sleep(s)]
    case None => [Request(server, server + Query)]
  }

  /** The index of the first response with status 200, or the number of
      responses when there is none. */
  function FirstOk(responses: seq<Response>): (k: nat)
    ensures k <= |responses|
    ensures forall j :: 0 <= j < k ==> responses[j].status != 200
    ensures k < |responses| ==> responses[k].status == 200
  {
    if responses == [] then 0
    else if responses[0].status == 200 then 0
    else 1 + FirstOk(responses[1..])
  }

  /** The events of asking the first `n` of `servers`, one step each. */
  function Trace(servers: seq<string>, responses: seq<Response>, n: nat): seq<Event>
    requires n <= |servers| && n <= |responses|
  {
    if n == 0 then []
    else Trace(servers, responses, n - 1) + Step(servers[n - 1], responses[n - 1].status)
  }

  /** The number of servers asked: up to and including the first that
      answers 200, or all of them. */
  function Attempts(responses: seq<Response>): (n: nat)
    ensures n <= |responses|
    ensures |responses| > 0 ==> n > 0
    ensures FirstOk(responses) < |responses| ==> n == FirstOk(responses) + 1
    ensures FirstOk(responses) == |responses| ==> n == |responses|
  {
    var k := FirstOk(responses);
    if k < |responses| then k + 1 else |responses|
  }

  /** What the fetch returns: the elements of the first answer with status
      200, or nothing when no server gives one. */
  function Fetched(responses: seq<Response>): Option<seq<Element>>
  {
    var k := FirstOk(responses);
    if k < |responses| then Some(responses[k].elements) else None
  }

  /** `get_data_osm`. `responses[i]` is what server `i` answers. */
  method GetDataOsm(responses: seq<Response>) returns (result: Option<seq<Element>>, log: seq<Event>)
    requires |responses| == |Servers|
    ensures result.None? <==> forall j :: 0 <= j < |responses| ==> responses[j].status != 200
    ensures result.Some? ==> result.value == responses[FirstOk(responses)].elements
    ensures result == Fetched(responses)
    ensures log == Trace(Servers, responses, Attempts(responses))
  {
    var server := 0;
    result := None;
    log := [];
    while server < |Servers| && result.None?
      invariant server <= |Servers|
      invariant result.None? ==> server <= FirstOk(responses)
      invariant result.Some? ==> 0 < server == FirstOk(responses) + 1
      invariant result.Some? ==> result.value == responses[server - 1].elements
      invariant log == Trace(Servers, responses, server)
    {
      var r := responses[server];
      log := log + [Request(Servers[server], Servers[server] + Query)];
      if r.status == 200 {
        result := Some(r.elements);
      } else if r.status == 400 {
        log := log + [Sleep(5)];
      } else if r.status == 429 {
        log := log + [Sleep(60)];
      } else if r.status == 504 {
        log := log + [Sleep(600)];
      }
      server := server + 1;
    }
  }

  /** The servers asked in a log, in order. */
  function Requests(log: seq<Event>): seq<string>
  {
    if log == [] then []
    else Requests(log[..|log| - 1]) + (if log[|log| - 1].Request? then [log[|log| - 1].server] else [])
  }

  lemma {:induction false} RequestsConcat(a: seq<Event>, b: seq<Event>)
    ensures Requests(a + b) == Requests(a) + Requests(b)
    decreases |b|
  {
    if b == [] {
      assert a + b == a;
    } else {
      assert (a + b)[..|a + b| - 1] == a + b[..|b| - 1];
      RequestsConcat(a, b[..|b| - 1]);
    }
  }

  /** Asking one server is one request. */
  lemma StepRequestsOne(server: string, status: int)
    ensures Requests(Step(server, status)) == [server]
  {
    assert Requests([Request(server, server + Query)]) == [server] by {
      assert [Request(server, server + Query)][..0] == [];
    }
    var step := Step(server, status);
    if Cooldown(status).Some? {
      assert step[..1] == [Request(server, server + Query)];
    }
  }

  /** The servers are asked in list order, each once, and no more of them
      than the first `n`. */
  lemma {:induction false} ServersAskedInOrder(servers: seq<string>, responses: seq<Response>, n: nat)
    requires n <= |servers| && n <= |responses|
    ensures Requests(Trace(servers, responses, n)) == servers[..n]
  {
    if n == 0 {
      assert Trace(servers, responses, 0) == [];
    } else {
      calc {
        Requests(Trace(servers, responses, n));
        { TraceStepAsksOne(servers, responses, n); }
        Requests(Trace(servers, responses, n - 1)) + [servers[n - 1]];
        { ServersAskedInOrder(servers, responses, n - 1); }
        servers[..n - 1] + [servers[n - 1]];
        { assert servers[..n] == servers[..n - 1] + [servers[n - 1]]; }
        servers[..n];
      }
    }
  }

  /** Each step of the trace adds its server to the requests. */
  lemma TraceStepAsksOne(servers: seq<string>, responses: seq<Response>, n: nat)
    requires 0 < n <= |servers| && n <= |responses|
    ensures Requests(Trace(servers, responses, n))
      == Requests(Trace(servers, responses, n - 1)) + [servers[n - 1]]
  {
    var step := Step(servers[n - 1], responses[n - 1].status);
    RequestsConcat(Trace(servers, responses, n - 1), step);
    StepRequestsOne(servers[n - 1], responses[n - 1].status);
  }

  /** The total time spent sleeping in a log. */
  function Slept(log: seq<Event>): nat
  {
    if log == [] then 0
    else Slept(log[..|log| - 1]) + (if log[|log| - 1].Sleep? then log[|log| - 1].seconds else 0)
  }

  lemma {:induction false} SleptConcat(a: seq<Event>, b: seq<Event>)
    ensures Slept(a + b) == Slept(a) + Slept(b)
    decreases |b|
  {
    if b == [] {
      assert a + b == a;
    } else {
      assert (a + b)[..|a + b| - 1] == a + b[..|b| - 1];
      SleptConcat(a, b[..|b| - 1]);
    }
  }

  /** Every request in `log` asks for its server's address followed by the
      Overpass query. */
  predicate SendsQuery(log: seq<Event>)
  {
    forall k :: 0 <= k < |log| && log[k].Request? ==> log[k].url == log[k].server + Query
  }

  /** Every server asked is sent the same query. */
  lemma {:induction false} EveryRequestSendsQuery(servers: seq<string>, responses: seq<Response>, n: nat)
    requires n <= |servers| && n <= |responses|
    ensures SendsQuery(Trace(servers, responses, n))
  {
    if n > 0 {
      EveryRequestSendsQuery(servers, responses, n - 1);
      var before := Trace(servers, responses, n - 1);
      var step := Step(servers[n - 1], responses[n - 1].status);
      assert SendsQuery(step);
      assert Trace(servers, responses, n) == before + step;
      forall k | 0 <= k < |before + step| && (before + step)[k].Request?
        ensures (before + step)[k].url == (before + step)[k].server + Query
      {
        if k >= |before| {
          assert (before + step)[k] == step[k - |before|];
        }
      }
    }
  }

  /** Asking one server costs at most a 600 s pause. */
  lemma StepSleepsAtMost600(server: string, status: int)
    ensures Slept(Step(server, status)) <= 600
  {
    assert Slept([Request(server, server + Query)]) == 0 by {
      assert [Request(server, server + Query)][..0] == [];
    }
    var step := Step(server, status);
    if Cooldown(status).Some? {
      assert step[..1] == [Request(server, server + Query)];
    }
  }

  /** Asking `n` servers sleeps at most 600 s per server. */
  lemma {:induction false} SleepIsBounded(servers: seq<string>, responses: seq<Response>, n: nat)
    requires n <= |servers| && n <= |responses|
    ensures Slept(Trace(servers, responses, n)) <= 600 * n
  {
    if n > 0 {
      SleepIsBounded(servers, responses, n - 1);
      TraceStepSleepsAtMost600(servers, responses, n);
    }
  }

  /** Each step of the trace adds at most a 600 s pause. */
  lemma TraceStepSleepsAtMost600(servers: seq<string>, responses: seq<Response>, n: nat)
    requires 0 < n <= |servers| && n <= |responses|
    ensures Slept(Trace(servers, responses, n)) <= Slept(Trace(servers, responses, n - 1)) + 600
  {
    var step := Step(servers[n - 1], responses[n - 1].status);
    SleptConcat(Trace(servers, responses, n - 1), step);
    StepSleepsAtMost600(servers[n - 1], responses[n - 1].status);
  }

  /** The whole fetch sleeps at most 600 s per server: 4200 s. */
  lemma FetchSleepIsBounded(responses: seq<Response>)
    requires |responses| == |Servers|
    ensures Slept(Trace(Servers, responses, Attempts(responses))) <= 4200
  {
    SleepIsBounded(Servers, responses, Attempts(responses));
  }

  /** The first server is rate-limited and the second answers: the result is
      the second answer, and the 60 s pause comes before the second request. */
  lemma RateLimitedThenOk(responses: seq<Response>)
    requires |responses| == |Servers|
    requires responses[0].status == 429 && responses[1].status == 200
    ensures FirstOk(responses) == 1 && Attempts(responses) == 2
    ensures Trace(Servers, responses, Attempts(responses))
         == [Request(Servers[0], Servers[0] + Query), Sleep(60), Request(Servers[1], Servers[1] + Query)]
  {
    assert FirstOk(responses) == 1;
    assert Step(Servers[1], 200) == [Request(Servers[1], Servers[1] + Query)];
    assert Trace(Servers, responses, 1) == [Request(Servers[0], Servers[0] + Query), Sleep(60)];
  }

  lemma NoOkAsksAll(responses: seq<Response>)
    requires forall j :: 0 <= j < |responses| ==> responses[j].status != 200
    ensures Attempts(responses) == |responses|
  {
  }

  /** Once a server answers 200 no further server is asked: the requests
      are the servers up to and including that one, in order. */
  lemma StopsAtFirstOk(responses: seq<Response>)
    requires |responses| == |Servers|
    requires FirstOk(responses) < |responses|
    ensures Attempts(responses) == FirstOk(responses) + 1
    ensures Requests(Trace(Servers, responses, Attempts(responses))) == Servers[..FirstOk(responses) + 1]
  {
    ServersAskedInOrder(Servers, responses, FirstOk(responses) + 1);
  }

  /** Every server fails: all of them are asked, each exactly once. */
  lemma AllFail(responses: seq<Response>)
    requires |responses| == |Servers|
    requires forall j :: 0 <= j < |responses| ==> responses[j].status != 200
    ensures Attempts(responses) == |Servers|
    ensures Requests(Trace(Servers, responses, Attempts(responses))) == Servers
  {
    var n := |responses|;
    NoOkAsksAll(responses);
    ServersAskedInOrder(Servers, responses, n);
    assert Servers[..n] == Servers;
  }
}

=== FILE: html.dfy ===
/** Python's `html.escape(s, quote=True)` and the part of `html.unescape`
    that undoes it. */
module Html {
  import opened Text

  /** The entity `html.escape` writes for one character; other characters stay. */
  function EscapeChar(c: char): string
  {
    match c
    case '&' => "&amp;"
    case '<' => "&lt;"
    case '>' => "&gt;"
    case '"' => "&quot;"
    case '\'' => "&#x27;"
    case _ => [c]
  }

  /** The characters `html.escape` rewrites. */
  predicate Special(c: char)
  {
    c == '&' || c == '<' || c == '>' || c == '"' || c == '\''
  }

  /** `html.escape(s)`, character by character. */
  function Escape(s: string): (r: string)
    ensures |r| >= |s|
    ensures '<' !in r && '>' !in r && '"' !in r && '\'' !in r
  {
    if s == [] then [] else EscapeChar(s[0]) + Escape(s[1..])
  }

  /** `html.escape` as the standard library writes it: five `str.replace`
      calls, the ampersand first. */
  function EscapeByReplace(s: string): string
  {
    Replace(Replace(Replace(Replace(Replace(s, "&", "&amp;"), "<", "&lt;"), ">", "&gt;"), "\"", "&quot;"), "'", "&#x27;")
  }

  /** The character-by-character escape agrees with the chain of replacements,
      on every input. */
  lemma {:induction false} EscapeAgreesWithReplaceChain(s: string)
    ensures Escape(s) == EscapeByReplace(s)
    decreases |s|
  {
    if s == [] {
    } else {
      var x, t := [s[0]], s[1..];
      assert s == x + t;
      EscapeAgreesWithReplaceChain(t);
      ReplaceChainConcat(x, t);
      ReplaceChainOneChar(s[0]);
    }
  }

  lemma ReplaceChainConcat(a: string, b: string)
    ensures EscapeByReplace(a + b) == EscapeByReplace(a) + EscapeByReplace(b)
  {
    var a1, b1 := Replace(a, "&", "&amp;"), Replace(b, "&", "&amp;");
    ReplaceCharConcat(a, b, '&', "&amp;");
    var a2, b2 := Replace(a1, "<", "&lt;"), Replace(b1, "<", "&lt;");
    ReplaceCharConcat(a1, b1, '<', "&lt;");
    var a3, b3 := Replace(a2, ">", "&gt;"), Replace(b2, ">", "&gt;");
    ReplaceCharConcat(a2, b2, '>', "&gt;");
    var a4, b4 := Replace(a3, "\"", "&quot;"), Replace(b3, "\"", "&quot;");
    ReplaceCharConcat(a3, b3, '"', "&quot;");
    ReplaceCharConcat(a4, b4, '\'', "&#x27;");
  }

  lemma ReplaceOwnChar(c: char, rep: string)
    ensures Replace([c], [c], rep) == rep
  {
    assert [c][..1] == [c];
    assert [c][1..] == [];
  }

  lemma ReplaceChainOneChar(c: char)
    ensures EscapeByReplace([c]) == EscapeChar(c)
  {
    if c == '&' {
      ReplaceOwnChar('&', "&amp;");
      ReplaceCharAbsent("&amp;", '<', "&lt;");
      ReplaceCharAbsent("&amp;", '>', "&gt;");
      ReplaceCharAbsent("&amp;", '"', "&quot;");
      ReplaceCharAbsent("&amp;", '\'', "&#x27;");
    } else if c == '<' {
      ReplaceCharAbsent([c], '&', "&amp;");
      ReplaceOwnChar('<', "&lt;");
      ReplaceCharAbsent("&lt;", '>', "&gt;");
      ReplaceCharAbsent("&lt;", '"', "&quot;");
      ReplaceCharAbsent("&lt;", '\'', "&#x27;");
    } else if c == '>' {
      ReplaceCharAbsent([c], '&', "&amp;");
      ReplaceCharAbsent([c], '<', "&lt;");
      ReplaceOwnChar('>', "&gt;");
      ReplaceCharAbsent("&gt;", '"', "&quot;");
      ReplaceCharAbsent("&gt;", '\'', "&#x27;");
    } else if c == '"' {
      ReplaceCharAbsent([c], '&', "&amp;");
      ReplaceCharAbsent([c], '<', "&lt;");
      ReplaceCharAbsent([c], '>', "&gt;");
      ReplaceOwnChar('"', "&quot;");
      ReplaceCharAbsent("&quot;", '\'', "&#x27;");
    } else if c == '\'' {
      ReplaceCharAbsent([c], '&', "&amp;");
      ReplaceCharAbsent([c], '<', "&lt;");
      ReplaceCharAbsent([c], '>', "&gt;");
      ReplaceCharAbsent([c], '"', "&quot;");
      ReplaceOwnChar('\'', "&#x27;");
    } else {
      ReplaceCharAbsent([c], '&', "&amp;");
      ReplaceCharAbsent([c], '<', "&lt;");
      ReplaceCharAbsent([c], '>', "&gt;");
      ReplaceCharAbsent([c], '"', "&quot;");
      ReplaceCharAbsent([c], '\'', "&#x27;");
    }
  }

  /** `html.unescape`, restricted to the five entities `html.escape` writes. */
  function Unescape(s: string): string
    decreases |s|
  {
    if s == [] then []
    else if "&amp;" <= s then "&" + Unescape(s[5..])
    else if "&lt;" <= s then "<" + Unescape(s[4..])
    else if "&gt;" <= s then ">" + Unescape(s[4..])
    else if "&quot;" <= s then "\"" + Unescape(s[6..])
    else if "&#x27;" <= s then "'" + Unescape(s[6..])
    else [s[0]] + Unescape(s[1..])
  }

  /** Text without an ampersand passes through unescaping untouched. */
  lemma {:induction false} UnescapeAfterPlain(a: string, u: string)
    requires '&' !in a
    ensures Unescape(a + u) == a + Unescape(u)
    decreases |a|
  {
    if a != [] {
      calc {
        Unescape(a + u);
        { assert (a + u)[0] == a[0]; UnescapePlainHead(a + u); assert (a + u)[1..] == a[1..] + u; }
        [a[0]] + Unescape(a[1..] + u);
        { UnescapeAfterPlain(a[1..], u); }
        [a[0]] + (a[1..] + Unescape(u));
        { assert [a[0]] + a[1..] == a; }
        a + Unescape(u);
      }
    } else {
      assert a + u == u;
    }
  }

  /** A first character other than `&` starts no entity and is kept. */
  lemma UnescapePlainHead(s: string)
    requires s != [] && s[0] != '&'
    ensures Unescape(s) == [s[0]] + Unescape(s[1..])
  {
    assert !("&amp;" <= s) && !("&lt;" <= s) && !("&gt;" <= s) && !("&quot;" <= s) && !("&#x27;" <= s);
  }

  lemma UnescapeEscapedChar(c: char, u: string)
    ensures Unescape(EscapeChar(c) + u) == [c] + Unescape(u)
  {
    var s := EscapeChar(c) + u;
    if c == '&' {
      assert "&amp;" <= s && s[5..] == u;
    } else if c == '<' {
      assert s[1] == 'l' && !("&amp;" <= s);
      assert "&lt;" <= s && s[4..] == u;
    } else if c == '>' {
      assert s[1] == 'g' && !("&amp;" <= s) && !("&lt;" <= s);
      assert "&gt;" <= s && s[4..] == u;
    } else if c == '"' {
      assert s[1] == 'q' && !("&amp;" <= s) && !("&lt;" <= s) && !("&gt;" <= s);
      assert "&quot;" <= s && s[6..] == u;
    } else if c == '\'' {
      assert s[1] == '#' && !("&amp;" <= s) && !("&lt;" <= s) && !("&gt;" <= s) && !("&quot;" <= s);
      assert "&#x27;" <= s && s[6..] == u;
    } else {
      UnescapeAfterPlain([c], u);
    }
  }

  /** Unescaping undoes escaping: the round trip the title of a marker relies on. */
  lemma {:induction false} UnescapeEscape(s: string)
    ensures Unescape(Escape(s)) == s
    decreases |s|
  {
    if s != [] {
      UnescapeEscapedChar(s[0], Escape(s[1..]));
      UnescapeEscape(s[1..]);
    }
  }

  /** Escaping loses nothing: different texts escape differently. */
  lemma EscapeInjective(a: string, b: string)
    requires Escape(a) == Escape(b)
    ensures a == b
  {
    UnescapeEscape(a);
    UnescapeEscape(b);
  }

  /** Text without any of the five special characters escapes to itself. */
  lemma {:induction false} EscapePlain(s: string)
    requires forall i :: 0 <= i < |s| ==> !Special(s[i])
    ensures Escape(s) == s
    decreases |s|
  {
    if s != [] {
      EscapePlain(s[1..]);
      assert [s[0]] + s[1..] == s;
    }
  }

  /** Comparing an escaped value with a plain word compares the raw value. */
  lemma EscapedEqualsPlain(v: string, w: string)
    requires forall i :: 0 <= i < |w| ==> !Special(w[i])
    ensures Escape(v) == w <==> v == w
  {
    EscapePlain(w);
    if Escape(v) == w {
      EscapeInjective(v, w);
    }
  }
}

=== FILE: icons.dfy ===
/** Choice of the marker icon: the first rule of an ordered table whose
    attribute carries the rule's value in its first `;`-separated field. */
module Icons {
  import opened Wrappers
  import opened Text
  import opened Elements

  /** An emoji used in titles: it holds no ampersand and no double quote,
      so it survives unescaping and needs no quote replacement. */
  type Glyph = s: string | '&' !in s && '"' !in s

  /** The icon id used by the map and the emoji shown in the title. */
  datatype Icon = Icon(marker: string, glyph: Glyph)

  /** One entry `"key:value": [marker, glyph]` of the icon table. */
  datatype Rule = Rule(key: string, value: string, icon: Icon)

  /** The icon of an element no rule matches. */
  const DefaultIcon := Icon("maki_star-stroked", "")

  /** The icon table, in the order its entries are tried: the pizza rule
      first on purpose, then the rest alphabetically by key and value. */
  const IconMapping: seq<Rule> :=
    [Rule("cuisine", "pizza", Icon("maki_restaurant-pizza", "🍕"))] + AmenityRules + HistoricRules + LeisureRules + ShopRules + TourismRules

  const AmenityRules: seq<Rule> := [
      Rule("amenity", "bar", Icon("bar", "🍸")),
      Rule("amenity", "bbq", Icon("bbq", "🍴")),
      Rule("amenity", "cafe", Icon("cafe", "☕")),
      Rule("amenity", "cinema", Icon("cinema", "🎦")),
      Rule("amenity", "college", Icon("maki_college", "🎓")),
      Rule("amenity", "fast_food", Icon("fast_food", "🍔")),
      Rule("amenity", "food_court", Icon("restaurant", "🍽️")),
      Rule("amenity", "fuel", Icon("fuel", "⛽")),
      Rule("amenity", "hospital", Icon("hospital", "🏥")),
      Rule("amenity", "ice_cream", Icon("ice_cream", "🍨")),
      Rule("amenity", "kindergarten", Icon("playground", "🧒")),
      Rule("amenity", "pharmacy", Icon("pharmacy", "💊")),
      Rule("amenity", "place_of_worship", Icon("place_of_worship", "🛐")),
      Rule("amenity", "pub", Icon("pub", "🍻")),
      Rule("amenity", "restaurant", Icon("restaurant", "🍽️")),
      Rule("amenity", "school", Icon("maki_school", "🏫")),
      Rule("amenity", "shelter", Icon("shelter", "☂️")),
      Rule("amenity", "swimming_pool", Icon("maki_swimming", "🏊‍♀️")),
      Rule("amenity", "theatre", Icon("theatre", "🎭")),
      Rule("amenity", "university", Icon("maki_college", "🎓")),
      Rule("amenity", "vending_machine", Icon("maki_shop", "🛒"))
    ]

  const HistoricRules: seq<Rule> := [
      Rule("historic", "memorial", Icon("monument", "🗿"))
    ]

  const LeisureRules: seq<Rule> := [
      Rule("leisure", "golf_course", Icon("golf", "🏌️")),
      Rule("leisure", "pitch", Icon("maki_pitch", "🏃")),
      Rule("leisure", "sports_centre", Icon("sports", "🤼")),
      Rule("leisure", "stadium", Icon("maki_stadium", "🏟️"))
    ]

  const ShopRules: seq<Rule> := [
      Rule("shop", "alcohol", Icon("alcohol", "🍷")),
      Rule("shop", "bakery", Icon("bakery", "🥯")),
      Rule("shop", "beauty", Icon("beauty", "💇")),
      Rule("shop", "bicycle", Icon("bicycle", "🚲")),
      Rule("shop", "books", Icon("library", "📚")),
      Rule("shop", "butcher", Icon("butcher", "🔪")),
      Rule("shop", "clothes", Icon("clothes", "👚")),
      Rule("shop", "confectionery", Icon("confectionery", "🍬")),
      Rule("shop", "convenience", Icon("convenience", "🏪")),
      Rule("shop", "department_store", Icon("department_store", "🏬")),
      Rule("shop", "doityourself", Icon("diy", "🛠️")),
      Rule("shop", "fishmonger", Icon("maki_shop", "🐟")),
      Rule("shop", "garden_centre", Icon("garden-centre", "🏡")),
      Rule("shop", "general", Icon("maki_shop", "🛒")),
      Rule("shop", "gift", Icon("gift", "🎁")),
      Rule("shop", "greengrocer", Icon("greengrocer", "🍏")),
      Rule("shop", "hairdresser", Icon("hairdresser", "💇")),
      Rule("shop", "kiosk", Icon("maki_shop", "🛒")),
      Rule("shop", "music", Icon("music", "🎶")),
      Rule("shop", "supermarket", Icon("supermarket", "🏪")),
      Rule("shop", "wine", Icon("alcohol", "🍷"))
    ]

  const TourismRules: seq<Rule> := [
      Rule("tourism", "guest_house", Icon("guest_house", "🏠")),
      Rule("tourism", "museum", Icon("museum", "🖼️"))
    ]

  /** `rule` applies to `tags`: the attribute is present and non-empty and
      its text before the first `;` is the rule's value. */
  predicate Matches(tags: Tags, rule: Rule)
  {
    rule.key in tags && tags[rule.key] != "" && BeforeFirst(tags[rule.key], ';') == rule.value
  }

  /** The index of the first rule of `rules` that applies, if any. */
  function FirstMatch(tags: Tags, rules: seq<Rule>): (r: Option<nat>)
    ensures r.Some? ==> r.value < |rules| && Matches(tags, rules[r.value])
    ensures r.Some? ==> forall j :: 0 <= j < r.value ==> !Matches(tags, rules[j])
    ensures r.None? ==> forall j :: 0 <= j < |rules| ==> !Matches(tags, rules[j])
  {
    if rules == [] then None
    else if Matches(tags, rules[0]) then Some(0)
    else match FirstMatch(tags, rules[1..])
      case None => None
      case Some(k) => Some(k + 1)
  }

  /** The icon chosen from `rules`: that of the first rule that applies,
      the default one when none does. */
  function IconFrom(tags: Tags, rules: seq<Rule>): Icon
  {
    match FirstMatch(tags, rules)
    case Some(k) => rules[k].icon
    case None => DefaultIcon
  }

  /** The icon `determine_icon` picks from the icon table. */
  function IconFor(tags: Tags): Icon
  {
    IconFrom(tags, IconMapping)
  }

  /** `determine_icon`: try the rules in table order, stop at the first that
      applies; the default icon when none does. The table is a parameter,
      given `IconMapping` by the caller. */
  method DetermineIcon(tags: Tags, rules: seq<Rule>) returns (icon: Icon)
    ensures icon == IconFrom(tags, rules)
    ensures icon == DefaultIcon || exists k :: 0 <= k < |rules| && icon == rules[k].icon && Matches(tags, rules[k])
  {
    icon := DefaultIcon;
    var i := 0;
    while i < |rules|
      invariant 0 <= i <= |rules|
      invariant forall j :: 0 <= j < i ==> !Matches(tags, rules[j])
    {
      var rule := rules[i];
      if rule.key in tags && tags[rule.key] != "" {
        var t := BeforeFirst(tags[rule.key], ';');
        if t == rule.value {
          icon := rule.icon;
          IconIsEarliestRule(tags, rules, i);
          return;
        }
      }
      i := i + 1;
    }
    assert FirstMatch(tags, rules).None?;
  }

  /** The icon is the one of the earliest applicable rule, whatever later
      rules also apply. */
  lemma {:induction false} IconIsEarliestRule(tags: Tags, rules: seq<Rule>, i: nat)
    requires i < |rules| && Matches(tags, rules[i])
    requires forall j :: 0 <= j < i ==> !Matches(tags, rules[j])
    ensures IconFrom(tags, rules) == rules[i].icon
  {
    var m := FirstMatch(tags, rules);
    assert m.Some? && m.value == i;
  }

  /** Only the first `;`-separated field is compared: a value followed by
      further fields still matches. */
  lemma {:induction false} FirstFieldDecides(v: string, rest: string)
    requires ';' !in v
    ensures BeforeFirst(v + ";" + rest, ';') == v
  {
    var s := v + ";" + rest;
    assert s[|v|] == ';';
  }

  /** A pizzeria that is also tagged as a bar gets the pizza icon: the
      cuisine rule is listed before the bar rule. */
  lemma PizzaBeforeBar(tags: Tags)
    requires "cuisine" in tags && BeforeFirst(tags["cuisine"], ';') == "pizza"
    requires "amenity" in tags && tags["amenity"] == "bar"
    ensures Matches(tags, IconMapping[1])
    ensures IconFor(tags) == Icon("maki_restaurant-pizza", "🍕")
  {
    assert tags["cuisine"] != "";
    assert BeforeFirst("bar", ';') == "bar" by {
      var r := BeforeFirst("bar", ';');
      assert |r| == 3;
    }
    IconIsEarliestRule(tags, IconMapping, 0);
  }
}

=== FILE: markers.dfy ===
/** What `write_data` makes of one element: its name and hover title, the
    popup built from optional sections, and the `L.marker(...)` line. */
module Markers {
  import opened Wrappers
  import opened Text
  import opened Html
  import opened Elements
  import opened Icons
  import opened Categories

  /** The name shown in the popup, where the browser decodes entities, so the
      escaped value is kept. Without a `name` tag: glyph, type and id. */
  function DisplayName(glyph: Glyph, tags: Tags, kind: Kind, id: nat): string
  {
    if "name" in tags then glyph + " " + tags["name"]
    else glyph + " " + KindName(kind) + " " + Decimal(id)
  }

  /** The title shown on hover, where entities are not decoded: a name is
      unescaped again and its double quotes replaced by U+201D so that it
      cannot end the surrounding `title:"..."`. */
  function Title(glyph: Glyph, tags: Tags, kind: Kind, id: nat): string
  {
    var name := DisplayName(glyph, tags, kind, id);
    if "name" in tags then Replace(Unescape(name), "\"", "”") else name
  }

  /** For a named element, the popup name is the glyph and the escaped name,
      and the title is the glyph and the ORIGINAL name with every `"`
      replaced by `”`: escaping then unescaping loses nothing. */
  lemma TitleRestoresName(glyph: Glyph, raw: Tags, kind: Kind, id: nat)
    requires "name" in raw
    ensures DisplayName(glyph, EscapeValues(raw), kind, id) == glyph + " " + Escape(raw["name"])
    ensures Title(glyph, EscapeValues(raw), kind, id) == glyph + " " + Replace(raw["name"], "\"", "”")
  {
    var prefix := glyph + " ";
    var n := raw["name"];
    assert EscapeValues(raw)["name"] == Escape(n);
    UnescapeAfterPlain(prefix, Escape(n));
    UnescapeEscape(n);
    ReplaceAfterPlainPrefix(prefix, n, "\"", "”");
  }

  /** A title never contains a double quote, named element or not. */
  lemma TitleHasNoDoubleQuote(glyph: Glyph, tags: Tags, kind: Kind, id: nat)
    ensures '"' !in Title(glyph, tags, kind, id)
  {
    if "name" in tags {
      ReplaceCharRemovesIt(Unescape(DisplayName(glyph, tags, kind, id)), '"', "”");
    } else {
      assert '"' !in Decimal(id);
      assert '"' !in KindName(kind);
    }
  }

  /** One line of the popup: `<div class="popupflex-container">` with an
      emoji and a body (the quotes are backslash-escaped for the JavaScript
      string the popup is written into). */
  function Section(emoji: string, body: string): string
  {
    "<div class=\\\"popupflex-container\\\"><div>" + emoji + "</div><div>" + body + "</div></div>"
  }

  /** The popup heading: the name in bold and a link to the element on openstreetmap.org. */
  function Heading(name: string, kind: Kind, id: nat): string
  {
    "<b>" + name + "</b> <a href=\\\"https://openstreetmap.org/" + KindName(kind) + "/" + Decimal(id)
    + "\\\" target=\\\"_blank\\\">*</a><hr/>"
  }

  function CuisineSection(tags: Tags): (r: string)
    ensures r == "" <==> "cuisine" !in tags
  {
    if "cuisine" in tags then Section("\U{1F469}\U{200D}\U{1F373}", tags["cuisine"]) else ""
  }

  /** `placeAddress += "<br/>"` when something is already there, then the part. */
  function AddLine(acc: string, part: string): string
  {
    (if acc != "" then acc + "<br/>" else acc) + part
  }

  /** The address block: street and house number, city, country, each added
      when its tag is present. */
  function Address(tags: Tags): string
  {
    var street := if "addr:street" in tags then Get(tags, "addr:street") + " " + Get(tags, "addr:housenumber") else "";
    var city := if "addr:city" in tags then AddLine(street, Get(tags, "addr:city")) else street;
    if "addr:country" in tags then AddLine(city, Get(tags, "addr:country")) else city
  }

  /** The parts of the address that are present, in order. */
  function AddressParts(tags: Tags): seq<string>
  {
    (if "addr:street" in tags then [Get(tags, "addr:street") + " " + Get(tags, "addr:housenumber")] else [])
    + (if "addr:city" in tags then [Get(tags, "addr:city")] else [])
    + (if "addr:country" in tags then [Get(tags, "addr:country")] else [])
  }

  /** `sep.join(parts)`. */
  function Join(parts: seq<string>, sep: string): string
  {
    if parts == [] then ""
    else if |parts| == 1 then parts[0]
    else parts[0] + sep + Join(parts[1..], sep)
  }

  lemma {:induction false} JoinSnoc(parts: seq<string>, p: string, sep: string)
    requires parts != []
    ensures Join(parts + [p], sep) == Join(parts, sep) + sep + p
    decreases |parts|
  {
    var ps := parts + [p];
    if |parts| == 1 {
      assert ps[1..] == [p];
    } else {
      assert ps[1..] == parts[1..] + [p];
      JoinSnoc(parts[1..], p, sep);
    }
  }

  /** Adding a non-empty part to a block that joins `parts` joins one more part. */
  lemma AddLineJoins(acc: string, parts: seq<string>, p: string)
    requires acc == Join(parts, "<br/>") && (acc == "" <==> parts == [])
    requires p != ""
    ensures AddLine(acc, p) == Join(parts + [p], "<br/>")
    ensures AddLine(acc, p) != ""
  {
    if parts == [] {
      assert parts + [p] == [p];
    } else {
      JoinSnoc(parts, p, "<br/>");
    }
  }

  /** When every city or country given is non-empty, the address block is
      exactly the present parts joined with `<br/>`, and it is empty exactly
      when no address tag is present. */
  lemma AddressJoinsParts(tags: Tags)
    requires "addr:city" in tags ==> tags["addr:city"] != ""
    requires "addr:country" in tags ==> tags["addr:country"] != ""
    ensures Address(tags) == Join(AddressParts(tags), "<br/>")
    ensures Address(tags) == "" <==> AddressParts(tags) == []
  {
    var line := Get(tags, "addr:street") + " " + Get(tags, "addr:housenumber");
    var street := if "addr:street" in tags then line else "";
    var streetParts := if "addr:street" in tags then [line] else [];
    assert line != "" by {
      assert |line| > 0;
    }
    var city := if "addr:city" in tags then AddLine(street, Get(tags, "addr:city")) else street;
    var cityParts := streetParts + (if "addr:city" in tags then [Get(tags, "addr:city")] else []);
    if "addr:city" in tags {
      AddLineJoins(street, streetParts, Get(tags, "addr:city"));
    } else {
      assert cityParts == streetParts;
    }
    var allParts := cityParts + (if "addr:country" in tags then [Get(tags, "addr:country")] else []);
    if "addr:country" in tags {
      AddLineJoins(city, cityParts, Get(tags, "addr:country"));
    } else {
      assert allParts == cityParts;
    }
    assert AddressParts(tags) == allParts;
  }

  function AddressSection(tags: Tags): (r: string)
    ensures r == "" <==> Address(tags) == ""
  {
    var address := Address(tags);
    if address != "" then Section("\U{1F4CD}", address) else ""
  }

  /** The value of a contact detail: the `contact:` tag when present, the
      plain tag otherwise, empty when neither is present. */
  function Contact(tags: Tags, primary: string, fallback: string): (v: string)
    ensures primary in tags ==> v == tags[primary]
    ensures primary !in tags && fallback in tags ==> v == tags[fallback]
    ensures primary !in tags && fallback !in tags ==> v == ""
  {
    if primary in tags then tags[primary]
    else if fallback in tags then tags[fallback]
    else ""
  }

  /** The text of the website link: the address with every `https://` removed. */
  function WebsiteText(url: string): string
  {
    Replace(url, "https://", "")
  }

  /** The link text of `https://` followed by an address that does not
      itself contain `https://` is that address; an address without it is
      shown as it is. */
  lemma WebsiteTextDropsScheme(rest: string)
    requires !Occurs(rest, "https://")
    ensures WebsiteText("https://" + rest) == rest
    ensures WebsiteText(rest) == rest
  {
    var url := "https://" + rest;
    assert url[..8] == "https://" && url[8..] == rest;
    ReplaceAbsent(rest, "https://", "");
  }

  function WebsiteSection(tags: Tags): (r: string)
    ensures r == "" <==> Contact(tags, "contact:website", "website") == ""
  {
    var url := Contact(tags, "contact:website", "website");
    if url != "" then
      Section("\U{1F310}", "<a href=\\\"" + url + "\\\" target=\\\"_blank\\\">" + WebsiteText(url) + "</a>")
    else ""
  }

  function EmailSection(tags: Tags): (r: string)
    ensures r == "" <==> Contact(tags, "contact:email", "email") == ""
  {
    var email := Contact(tags, "contact:email", "email");
    if email != "" then
      Section("\U{1F4E7}", "<a href=\\\"mailto:" + email + "\\\" target=\\\"_blank\\\">" + email + "</a><br/>")
    else ""
  }

  function PhoneSection(tags: Tags): (r: string)
    ensures r == "" <==> Contact(tags, "contact:phone", "phone") == ""
  {
    var phone := Contact(tags, "contact:phone", "phone");
    if phone != "" then
      Section("\U{260E}\U{FE0F}", "<a href=\\\"tel:" + phone + "\\\" target=\\\"_blank\\\">" + phone + "</a><br/>")
    else ""
  }

  /** The opening hours as shown: line breaks removed, each "; " turned
      into `<br/>`. The result has no line break to break the data file and
      no "; " left. */
  function OpeningHours(raw: string): (r: string)
    ensures '\n' !in r && '\r' !in r
    ensures !Occurs(r, "; ")
  {
    var noNewline := Replace(raw, "\n", "");
    var noReturn := Replace(noNewline, "\r", "");
    var r := Replace(noReturn, "; ", "<br/>");
    ReplaceCharRemovesIt(raw, '\n', "");
    ReplaceKeepsAbsentChar(noNewline, "\r", "", '\n');
    ReplaceCharRemovesIt(noNewline, '\r', "");
    ReplaceKeepsAbsentChar(noReturn, "; ", "<br/>", '\n');
    ReplaceKeepsAbsentChar(noReturn, "; ", "<br/>", '\r');
    ReplacePairRemovesIt(noReturn, "; ", "<br/>");
    r
  }

  /** Each "; " between entries becomes `<br/>` and the entry before it is
      kept as it is. */
  lemma OpeningHoursBreaksEntries(a: string, b: string)
    requires '\n' !in a && '\r' !in a && ';' !in a
    ensures OpeningHours(a + "; " + b) == a + "<br/>" + OpeningHours(b)
  {
    var head := a + "; ";
    assert '\n' !in head && '\r' !in head;
    ReplaceCharConcat(head, b, '\n', "");
    ReplaceCharAbsent(head, '\n', "");
    var b1 := Replace(b, "\n", "");
    ReplaceCharConcat(head, b1, '\r', "");
    ReplaceCharAbsent(head, '\r', "");
    var b2 := Replace(b1, "\r", "");
    var tail := "; " + b2;
    assert head + b2 == a + tail;
    ReplaceAfterPlainPrefix(a, tail, "; ", "<br/>");
    assert tail[..2] == "; " && tail[2..] == b2;
    assert Replace(tail, "; ", "<br/>") == "<br/>" + Replace(b2, "; ", "<br/>");
    assert a + ("<br/>" + Replace(b2, "; ", "<br/>")) == a + "<br/>" + Replace(b2, "; ", "<br/>");
  }

  function HoursSection(tags: Tags): (r: string)
    ensures r == "" <==> "opening_hours" !in tags
  {
    if "opening_hours" in tags then Section("\U{1F556}", OpeningHours(tags["opening_hours"])) else ""
  }

  /** The popup: the heading, then each optional section. */
  function Popup(name: string, kind: Kind, id: nat, tags: Tags): string
  {
    Heading(name, kind, id) + CuisineSection(tags) + AddressSection(tags) + WebsiteSection(tags)
    + EmailSection(tags) + PhoneSection(tags) + HoursSection(tags)
  }

  /** An element with none of the optional tags gets a popup of the heading alone. */
  lemma BarePopup(name: string, kind: Kind, id: nat, tags: Tags)
    requires forall k :: k in tags ==> k !in {"cuisine", "addr:street", "addr:city", "addr:country",
      "contact:website", "website", "contact:email", "email", "contact:phone", "phone", "opening_hours"}
    ensures Popup(name, kind, id, tags) == Heading(name, kind, id)
  {
    assert "cuisine" !in tags && "opening_hours" !in tags;
    assert "addr:street" !in tags && "addr:city" !in tags && "addr:country" !in tags;
    assert Address(tags) == "";
    assert Contact(tags, "contact:website", "website") == "";
    assert Contact(tags, "contact:email", "email") == "";
    assert Contact(tags, "contact:phone", "phone") == "";
    var h := Heading(name, kind, id);
    assert h + "" + "" + "" + "" + "" + "" == h;
  }

  /** The line `write_data` writes for one marker. */
  function MarkerLine(lat: Coord, lon: Coord, title: string, icon: Icon, category: Category, popup: string): string
  {
    "L.marker([" + lat.text + "," + lon.text + "],{title:\"" + title + "\",icon:getIcon(\"" + icon.marker
    + "\",\"" + Name(category) + "\")}).bindPopup(\"" + popup + "\").addTo(" + Name(category) + ");"
  }

  /** A marker: its category and its line in the data file. */
  datatype Marker = Marker(category: Category, line: string)

  /** Escaping does not change the category: the diet values it tests are plain words. */
  lemma ClassifyIgnoresEscaping(tags: Tags)
    ensures Classify(EscapeValues(tags)) == Classify(tags)
  {
    EscapedGet(tags, "diet:vegan", "only");
    EscapedGet(tags, "diet:vegan", "yes");
    EscapedGet(tags, "diet:vegan", "limited");
    EscapedGet(tags, "diet:vegetarian", "only");
  }

  lemma EscapedGet(tags: Tags, key: string, word: string)
    requires forall i :: 0 <= i < |word| ==> !Special(word[i])
    ensures Get(EscapeValues(tags), key) == word <==> Get(tags, key) == word
  {
    if key in tags {
      EscapedEqualsPlain(tags[key], word);
    }
  }

  /** The loop body of `write_data` for one element: escape its tags, skip
      it without a position, else pick icon, name, title, category and popup. */
  function Render(e: Element): Option<Marker>
  {
    var tags := EscapeValues(e.tags);
    match Position(e)
    case None => None
    case Some((lat, lon)) =>
      var icon := IconFor(tags);
      var name := DisplayName(icon.glyph, tags, e.kind, e.id);
      var title := Title(icon.glyph, tags, e.kind, e.id);
      var category := Classify(tags);
      Some(Marker(category, MarkerLine(lat, lon, title, icon, category, Popup(name, e.kind, e.id, tags))))
  }

  /** An element gets a marker exactly when it has a position, and the
      marker's category is the one its raw diet tags decide: escaping
      does not change a category. */
  lemma MarkerExactlyWhenPlaced(e: Element)
    ensures Render(e).None? <==> Position(e).None?
    ensures Render(e).Some? ==> Render(e).value.category == Classify(e.tags)
  {
    ClassifyIgnoresEscaping(e.tags);
  }


  /** The marker of a placed element, spelled out. */
  lemma RenderWhenPlaced(e: Element, lat: Coord, lon: Coord)
    requires Position(e) == Some((lat, lon))
    ensures var tags := EscapeValues(e.tags);
      var icon := IconFor(tags);
      Render(e) == Some(Marker(Classify(tags),
        MarkerLine(lat, lon, Title(icon.glyph, tags, e.kind, e.id), icon, Classify(tags),
                   Popup(DisplayName(icon.glyph, tags, e.kind, e.id), e.kind, e.id, tags))))
  {
  }
}

=== FILE: rotation.dfy ===
/** `check_data` and `main`: the data file is written to a temporary file,
    which replaces the data file (keeping the previous one as the old file)
    only when it is larger than 250 bytes. The file system is the three
    files the script touches, each holding bytes. */
module Rotation {
  import opened Wrappers
  import opened Text
  import opened Utf8
  import opened Elements
  import opened Categories
  import opened Markers
  import opened Fetch
  import opened Writer

  /** `veggiemap-data-temp.js`, `veggiemap-data.js`, `veggiemap-data_old.js`. */
  datatype Path = TempFile | DataFile | OldFile

  type Files = map<Path, seq<byte>>

  /** A temporary file of at most this many bytes is taken for a broken run. */
  const MinSize := 250

  /** The temporary file exists and is larger than `MinSize`. */
  predicate Acceptable(fs: Files)
  {
    TempFile in fs && |fs[TempFile]| > MinSize
  }

  /** `os.rename(src, dst)`: `dst` takes the content of `src`, replacing
      whatever it held, and `src` is gone. */
  function Renamed(fs: Files, src: Path, dst: Path): (r: Files)
    requires src in fs
    ensures dst in r && r[dst] == fs[src]
    ensures src != dst ==> src !in r
    ensures forall p :: p != src && p != dst ==> (p in r <==> p in fs) && (p in r ==> r[p] == fs[p])
  {
    fs[dst := fs[src]] - (if src == dst then {} else {src})
  }

  /** The files after `check_data`: the data file becomes the old file and
      the temporary file the data file when the temporary file is acceptable;
      nothing changes otherwise. */
  function Rotated(fs: Files): Files
    requires Acceptable(fs) ==> DataFile in fs
  {
    if Acceptable(fs) then Renamed(Renamed(fs, DataFile, OldFile), TempFile, DataFile) else fs
  }

  /** The text of a file written line by line, each line ended by `\n`. */
  function FileText(lines: seq<string>): string
  {
    if lines == [] then "" else FileText(lines[..|lines| - 1]) + lines[|lines| - 1] + "\n"
  }

  /** The bytes `write_data` leaves in the temporary file. */
  function DataBytes(stamp: string, elements: seq<Element>): seq<byte>
  {
    Encode(FileText(Document(stamp, elements)))
  }

  /** The files after fetching and, on success, writing the temporary file. */
  function Written(fs: Files, responses: seq<Response>, stamp: string): Files
  {
    match Fetched(responses)
    case None => fs
    case Some(elements) => fs[TempFile := DataBytes(stamp, elements)]
  }

  /** The files after `main`: unchanged when no server answered, else the
      new temporary file, rotated in when it is acceptable. */
  function Outcome(fs: Files, responses: seq<Response>, stamp: string): Files
    requires Fetched(responses).Some? && Acceptable(Written(fs, responses, stamp)) ==> DataFile in fs
  {
    if Fetched(responses).None? then fs else Rotated(Written(fs, responses, stamp))
  }

  /** The three files the script works on. */
  class Disk {
    var files: Files

    constructor (initial: Files)
      ensures files == initial
    {
      files := initial;
    }

    /** `open(path, 'w')` and the writes: the file now holds `data`. */
    method Write(path: Path, data: seq<byte>)
      modifies this
      ensures files == old(files)[path := data]
    {
      files := files[path := data];
    }

    /** `os.rename(src, dst)`. */
    method Rename(src: Path, dst: Path)
      requires src in files
      modifies this
      ensures files == Renamed(old(files), src, dst)
    {
      files := Renamed(files, src, dst);
    }

    /** `check_data`. Renaming the data file away needs it to exist: the
        script assumes an earlier run left one. */
    method CheckData()
      requires Acceptable(files) ==> DataFile in files
      modifies this
      ensures files == Rotated(old(files))
    {
      if TempFile in files {
        if |files[TempFile]| > MinSize {
          Rename(DataFile, OldFile);
          Rename(TempFile, DataFile);
        }
      }
    }
  }

  /** `main`: fetch; on success write the temporary file and check it.
      `responses` stands for the servers' answers and `stamp` for the
      time stamp of the run; `log` is what the fetch did. */
  method Refresh(disk: Disk, responses: seq<Response>, stamp: string) returns (log: seq<Event>)
    requires |responses| == |Servers|
    requires Fetched(responses).Some? && Acceptable(Written(disk.files, responses, stamp)) ==> DataFile in disk.files
    modifies disk
    ensures disk.files == Outcome(old(disk.files), responses, stamp)
    ensures log == Trace(Servers, responses, Attempts(responses))
  {
    var data;
    data, log := GetDataOsm(responses);
    if data.Some? {
      var lines := WriteData(stamp, data.value);
      disk.Write(TempFile, Encode(FileText(lines)));
      disk.CheckData();
    }
  }

  /** Writing a file line by line: the text of two runs of lines is the
      text of the first followed by the text of the second. */
  lemma {:induction false} FileTextConcat(a: seq<string>, b: seq<string>)
    ensures FileText(a + b) == FileText(a) + FileText(b)
    decreases |b|
  {
    if b == [] {
      assert a + b == a;
    } else {
      assert (a + b)[..|a + b| - 1] == a + b[..|b| - 1];
      FileTextConcat(a, b[..|b| - 1]);
    }
  }

  /** The bytes a file written line by line takes before encoding:
      each line and its `\n`. */
  function TextSize(lines: seq<string>): nat
  {
    if lines == [] then 0 else TextSize(lines[..|lines| - 1]) + |lines[|lines| - 1]| + 1
  }

  lemma {:induction false} FileTextSize(lines: seq<string>)
    ensures |FileText(lines)| == TextSize(lines)
  {
    if lines != [] {
      FileTextSize(lines[..|lines| - 1]);
    }
  }

  lemma TextSizeStep(lines: seq<string>, k: nat)
    requires 0 < k <= |lines|
    ensures TextSize(lines[..k]) == TextSize(lines[..k - 1]) + |lines[k - 1]| + 1
  {
    assert lines[..k][..k - 1] == lines[..k - 1];
  }

  lemma FooterSize(c: Counts)
    ensures TextSize(Footer(c)) == 121 + |Decimal(c.veganOnly)| + |Decimal(c.vegetarianOnly)|
      + |Decimal(c.veganFriendly)| + |Decimal(c.veganLimited)| + |Decimal(c.vegetarianFriendly)|
  {
    var f := Footer(c);
    assert f[..0] == [] && f[..8] == f;
    TextSizeStep(f, 1);
    TextSizeStep(f, 2);
    TextSizeStep(f, 3);
    TextSizeStep(f, 4);
    TextSizeStep(f, 5);
    TextSizeStep(f, 6);
    TextSizeStep(f, 7);
    TextSizeStep(f, 8);
  }

  lemma {:induction false} TextSizeConcat(a: seq<string>, b: seq<string>)
    ensures TextSize(a + b) == TextSize(a) + TextSize(b)
    decreases |b|
  {
    if b == [] {
      assert a + b == a;
    } else {
      assert (a + b)[..|a + b| - 1] == a + b[..|b| - 1];
      TextSizeConcat(a, b[..|b| - 1]);
    }
  }

  lemma HeaderSize(stamp: string)
    ensures TextSize(Header(stamp)) == 52 + |stamp|
  {
    var h := Header(stamp);
    assert h[..0] == [] && h[..2] == h;
    TextSizeStep(h, 1);
    TextSizeStep(h, 2);
  }

  /** A text all of whose characters are ASCII: one byte each in UTF-8. */
  predicate AllAscii(s: string)
  {
    forall i :: 0 <= i < |s| ==> IsAscii(s[i])
  }

  lemma AllAsciiConcat(a: string, b: string)
    requires AllAscii(a) && AllAscii(b)
    ensures AllAscii(a + b)
  {
    forall i | 0 <= i < |a + b| ensures IsAscii((a + b)[i]) {
      if i >= |a| {
        assert (a + b)[i] == b[i - |a|];
      }
    }
  }

  lemma {:induction false} FileTextAscii(lines: seq<string>)
    requires forall k :: 0 <= k < |lines| ==> AllAscii(lines[k])
    ensures AllAscii(FileText(lines))
  {
    if lines != [] {
      FileTextAscii(lines[..|lines| - 1]);
      AllAsciiConcat(FileText(lines[..|lines| - 1]), lines[|lines| - 1]);
      AllAsciiConcat(FileText(lines[..|lines| - 1]) + lines[|lines| - 1], "\n");
    }
  }

  lemma DecimalAscii(n: nat)
    ensures AllAscii(Decimal(n))
  {
  }

  /** The fixed text of the footer is ASCII. */
  lemma LabelsAscii()
    ensures AllAscii("}") && AllAscii("let numbers = {") && AllAscii("};") && AllAscii(",")
    ensures AllAscii(" n_vegan_only:") && AllAscii(" n_vegetarian_only:")
    ensures AllAscii(" n_vegan_friendly:") && AllAscii(" n_vegan_limited:")
    ensures AllAscii(" n_vegetarian_friendly:")
  {
  }

  lemma CounterLineAscii(name: string, n: nat)
    requires AllAscii(name)
    ensures AllAscii(name + Decimal(n)) && AllAscii(name + Decimal(n) + ",")
  {
    DecimalAscii(n);
    AllAsciiConcat(name, Decimal(n));
    LabelsAscii();
    AllAsciiConcat(name + Decimal(n), ",");
  }

  lemma FooterAscii(c: Counts)
    ensures forall k :: 0 <= k < |Footer(c)| ==> AllAscii(Footer(c)[k])
  {
    LabelsAscii();
    CounterLineAscii(" n_vegan_only:", c.veganOnly);
    CounterLineAscii(" n_vegetarian_only:", c.vegetarianOnly);
    CounterLineAscii(" n_vegan_friendly:", c.veganFriendly);
    CounterLineAscii(" n_vegan_limited:", c.veganLimited);
    CounterLineAscii(" n_vegetarian_friendly:", c.vegetarianFriendly);
  }

  /** The text of a run without markers is ASCII. */
  lemma EmptyRunAscii(stamp: string)
    requires AllAscii(stamp)
    ensures AllAscii(FileText(Header(stamp) + Footer(NoCounts)))
  {
    var doc := Header(stamp) + Footer(NoCounts);
    FooterAscii(NoCounts);
    HeaderAscii(stamp);
    assert forall k :: 0 <= k < |doc| ==> AllAscii(doc[k]) by {
      forall k | 0 <= k < |doc| ensures AllAscii(doc[k]) {
        if k >= 2 {
          assert doc[k] == Footer(NoCounts)[k - 2];
        }
      }
    }
    FileTextAscii(doc);
  }

  lemma HeaderAscii(stamp: string)
    requires AllAscii(stamp)
    ensures forall k :: 0 <= k < |Header(stamp)| ==> AllAscii(Header(stamp)[k])
  {
    assert AllAscii("// Created: ") && AllAscii("function veggiemap_populate(markers) {");
    AllAsciiConcat("// Created: ", stamp);
  }

  lemma EmptyRunText(stamp: string)
    ensures |FileText(Header(stamp) + Footer(NoCounts))| == 178 + |stamp|
  {
    var doc := Header(stamp) + Footer(NoCounts);
    FileTextSize(doc);
    TextSizeConcat(Header(stamp), Footer(NoCounts));
    HeaderSize(stamp);
    FooterSize(NoCounts);
    assert |Decimal(0)| == 1;
  }

  /** A run whose data yields no marker writes the header, the closing
      brace and five zero counts: 178 bytes besides the time stamp. */
  lemma EmptyRunSize(stamp: string, elements: seq<Element>)
    requires AllAscii(stamp) && MarkerLines(elements) == []
    ensures |DataBytes(stamp, elements)| == 178 + |stamp|
  {
    NoMarkersDocument(stamp, elements);
    EmptyRunText(stamp);
    EmptyRunAscii(stamp);
  }

  lemma NoMarkersDocument(stamp: string, elements: seq<Element>)
    requires MarkerLines(elements) == []
    ensures Document(stamp, elements) == Header(stamp) + Footer(NoCounts)
  {
    NoMarkersNoCounts(elements);
    assert Header(stamp) + MarkerLines(elements) == Header(stamp);
  }

  lemma NoMarkersNoCounts(elements: seq<Element>)
    requires MarkerLines(elements) == []
    ensures Tally(elements) == NoCounts
  {
    CountsMatchMarkers(elements);
  }

  /** Every marker line is longer than 88 characters: the fixed text of
      `L.marker(...)` and the category named twice. */
  lemma MarkerLineIsLong(e: Element)
    requires Render(e).Some?
    ensures |Render(e).value.line| >= 88
  {
  }

  lemma {:induction false} MarkerLinesAreLong(elements: seq<Element>)
    requires MarkerLines(elements) != []
    ensures TextSize(MarkerLines(elements)) >= 89
  {
    var n := |elements|;
    var prefix := MarkerLines(elements[..n - 1]);
    var last := LineOf(Render(elements[n - 1]));
    TextSizeConcat(prefix, last);
    if last == [] {
      MarkerLinesAreLong(elements[..n - 1]);
    } else {
      MarkerLineIsLong(elements[n - 1]);
      assert last == [last[0]] && last[..0] == [];
    }
  }

  /** A run with at least one marker writes more than `MinSize` bytes,
      whatever the time stamp. */
  lemma MarkersMakeLargeFile(stamp: string, elements: seq<Element>)
    requires MarkerLines(elements) != []
    ensures |DataBytes(stamp, elements)| > MinSize
  {
    var doc := Document(stamp, elements);
    FileTextSize(doc);
    TextSizeConcat(Header(stamp), MarkerLines(elements));
    TextSizeConcat(Header(stamp) + MarkerLines(elements), Footer(Tally(elements)));
    HeaderSize(stamp);
    FooterSize(Tally(elements));
    MarkerLinesAreLong(elements);
  }

  /** `check_data` is all or nothing: either every file stays as it was, or
      the data file holds the temporary file's bytes, the old file the
      previous data file's, and the temporary file is gone. */
  lemma RotationIsAllOrNothing(fs: Files)
    requires Acceptable(fs) ==> DataFile in fs
    ensures Rotated(fs) == fs <==> !Acceptable(fs)
    ensures Acceptable(fs) ==>
      Rotated(fs) == map[DataFile := fs[TempFile], OldFile := fs[DataFile]]
  {
    if Acceptable(fs) {
      var r := Rotated(fs);
      assert TempFile !in r;
      assert r.Keys == {DataFile, OldFile};
    }
  }

  /** A data file is healthy when it is missing or larger than `MinSize`. */
  predicate Healthy(fs: Files)
  {
    DataFile in fs ==> |fs[DataFile]| > MinSize
  }

  /** A run never puts a file of `MinSize` bytes or less in place of the
      data file, and whenever it replaces the data file it keeps the
      previous one as the old file. */
  lemma RefreshKeepsDataHealthy(fs: Files, responses: seq<Response>, stamp: string)
    requires Fetched(responses).Some? && Acceptable(Written(fs, responses, stamp)) ==> DataFile in fs
    requires Healthy(fs)
    ensures Healthy(Outcome(fs, responses, stamp))
    ensures DataFile in Outcome(fs, responses, stamp) && Outcome(fs, responses, stamp)[DataFile] != fs[DataFile] ==>
      OldFile in Outcome(fs, responses, stamp) && Outcome(fs, responses, stamp)[OldFile] == fs[DataFile]
  {
    if Fetched(responses).Some? {
      RotationIsAllOrNothing(Written(fs, responses, stamp));
    }
  }

  /** When no server answers 200, `main` neither writes nor renames anything. */
  lemma FailedFetchChangesNothing(fs: Files, responses: seq<Response>, stamp: string)
    requires forall j :: 0 <= j < |responses| ==> responses[j].status != 200
    ensures Outcome(fs, responses, stamp) == fs
  {
    assert FirstOk(responses) == |responses|;
  }

  /** With a time stamp of at most 72 ASCII characters (Python prints one of
      26, or of 19 when the microsecond is 0), a successful fetch replaces the data file exactly when its data
      yields at least one marker: a run without markers is taken for broken. */
  lemma RotatesExactlyWithMarkers(fs: Files, responses: seq<Response>, stamp: string)
    requires Fetched(responses).Some?
    requires AllAscii(stamp) && |stamp| <= 72
    ensures Acceptable(Written(fs, responses, stamp)) <==> MarkerLines(Fetched(responses).value) != []
  {
    var elements := Fetched(responses).value;
    if MarkerLines(elements) == [] {
      EmptyRunSize(stamp, elements);
    } else {
      MarkersMakeLargeFile(stamp, elements);
    }
  }
}

=== FILE: scenarios.dfy ===
/** A worked element: a vegan-only cafe, from its tags to its marker line. */
module Scenarios {
  import opened Wrappers
  import opened Text
  import opened Html
  import opened Elements
  import opened Icons
  import opened Categories
  import opened Markers

  /** The tags of a vegan-only cafe called `name`. */
  function CafeTags(name: string): Tags
  {
    map["diet:vegan" := "only", "name" := name, "amenity" := "cafe"]
  }

  /** A name none of whose characters escaping changes. */
  predicate PlainName(name: string)
  {
    forall i :: 0 <= i < |name| ==> !Special(name[i])
  }

  lemma CafeTagsEscapeToThemselves(name: string)
    requires PlainName(name)
    ensures EscapeValues(CafeTags(name)) == CafeTags(name)
  {
    assert PlainName("only") && PlainName("cafe");
    PlainTagsEscapeToThemselves(CafeTags(name));
  }

  /** Tags whose values hold no special character escape to themselves. */
  lemma PlainTagsEscapeToThemselves(tags: Tags)
    requires forall k :: k in tags ==> PlainName(tags[k])
    ensures EscapeValues(tags) == tags
  {
    forall k | k in tags
      ensures Escape(tags[k]) == tags[k]
    {
      EscapePlain(tags[k]);
    }
  }

  /** The cafe gets the cafe icon, the fourth rule of the table. */
  lemma CafeIcon(name: string)
    ensures IconFor(CafeTags(name)) == Icon("cafe", "☕")
  {
    CafeRuleIsFirst(name);
    IconIsEarliestRule(CafeTags(name), IconMapping, 3);
  }

  /** The pizza, bar and barbecue rules do not apply to the cafe; the cafe rule does. */
  lemma CafeRuleIsFirst(name: string)
    ensures 3 < |IconMapping| && IconMapping[3].icon == Icon("cafe", "☕")
    ensures Matches(CafeTags(name), IconMapping[3])
    ensures forall j :: 0 <= j < 3 ==> !Matches(CafeTags(name), IconMapping[j])
  {
    CafeAttributes(name);
    FirstRules();
    assert BeforeFirst("cafe", ';') == "cafe" by {
      var r := BeforeFirst("cafe", ';');
      assert |r| == 4;
    }
  }

  lemma CafeAttributes(name: string)
    ensures "amenity" in CafeTags(name) && CafeTags(name)["amenity"] == "cafe"
    ensures "cuisine" !in CafeTags(name)
  {
  }

  lemma FirstRules()
    ensures |IconMapping| > 3
    ensures IconMapping[0].key == "cuisine"
    ensures IconMapping[1] == Rule("amenity", "bar", Icon("bar", "🍸"))
    ensures IconMapping[2] == Rule("amenity", "bbq", Icon("bbq", "🍴"))
    ensures IconMapping[3] == Rule("amenity", "cafe", Icon("cafe", "☕"))
  {
  }

  /** The cafe's title and popup name are its glyph and its name, unchanged. */
  lemma CafeTitle(name: string)
    requires PlainName(name)
    ensures Title("☕", CafeTags(name), Node, 1) == "☕ " + name
    ensures DisplayName("☕", CafeTags(name), Node, 1) == "☕ " + name
  {
    var tags := CafeTags(name);
    assert tags["name"] == name;
    TitleRestoresName("☕", tags, Node, 1);
    CafeTagsEscapeToThemselves(name);
    assert '"' !in name;
    ReplaceCharAbsent(name, '"', "”");
    EscapePlain(name);
    assert "☕" + " " == "☕ ";
  }

  /** The node `{id: 1, tags: {"diet:vegan": "only", "name": name,
      "amenity": "cafe"}, lat: 52.5, lon: 13.4}` is written as a vegan-only
      marker at 52.5,13.4 with the cafe icon, the name as title and the name
      at the head of its popup. */
  lemma GreenCafeMarker(name: string)
    requires PlainName(name)
    ensures var e := Element(1, Node, CafeTags(name), Some(Coord("52.5", false)), Some(Coord("13.4", false)), None);
      Render(e) == Some(Marker(VeganOnly,
        MarkerLine(Coord("52.5", false), Coord("13.4", false), "☕ " + name, Icon("cafe", "☕"), VeganOnly,
                   Popup("☕ " + name, Node, 1, CafeTags(name)))))
  {
    var e := Element(1, Node, CafeTags(name), Some(Coord("52.5", false)), Some(Coord("13.4", false)), None);
    RenderWhenPlaced(e, Coord("52.5", false), Coord("13.4", false));
    CafeTagsEscapeToThemselves(name);
    CafeIcon(name);
    CafeTitle(name);
    CafeIsVeganOnly(name);
  }

  lemma CafeIsVeganOnly(name: string)
    ensures Classify(CafeTags(name)) == VeganOnly
  {
    assert Get(CafeTags(name), "diet:vegan") == "only";
  }
}

=== FILE: text.dfy ===
/** String operations of the refresh script: Python's `s.split(sep)[0]`,
    `s.replace(old, new)` and the decimal rendering `%s` of a natural number. */
module Text {

  /** `pat` occurs in `s` at index `i`. */
  predicate At(s: string, i: int, pat: string)
  {
    0 <= i && i + |pat| <= |s| && s[i..i + |pat|] == pat
  }

  /** `pat` occurs somewhere in `s`. */
  predicate Occurs(s: string, pat: string)
  {
    exists i | 0 <= i <= |s| :: At(s, i, pat)
  }

  /** The text before the first `sep` (all of `s` when there is none): `s.split(sep)[0]`. */
  function BeforeFirst(s: string, sep: char): (r: string)
    ensures r <= s
    ensures sep !in r
    ensures |r| < |s| ==> s[|r|] == sep
  {
    if s == [] then []
    else if s[0] == sep then []
    else [s[0]] + BeforeFirst(s[1..], sep)
  }

  /** Python's `s.replace(pat, rep)`: scan left to right and replace every
      non-overlapping occurrence of `pat`. */
  function Replace(s: string, pat: string, rep: string): string
    requires |pat| > 0
    decreases |s|
  {
    if |s| < |pat| then s
    else if s[..|pat|] == pat then rep + Replace(s[|pat|..], pat, rep)
    else [s[0]] + Replace(s[1..], pat, rep)
  }

  /** Replacing a pattern that does not occur leaves the text unchanged. */
  lemma {:induction false} ReplaceAbsent(s: string, pat: string, rep: string)
    requires |pat| > 0 && !Occurs(s, pat)
    ensures Replace(s, pat, rep) == s
    decreases |s|
  {
    if |s| >= |pat| {
      assert !At(s, 0, pat);
      assert !Occurs(s[1..], pat) by {
        forall i | At(s[1..], i, pat) ensures At(s, i + 1, pat) {
          assert s[1..][i..i + |pat|] == s[i + 1..i + 1 + |pat|];
        }
      }
      ReplaceAbsent(s[1..], pat, rep);
    }
  }

  /** A prefix without the pattern's first character passes through untouched. */
  lemma {:induction false} ReplaceAfterPlainPrefix(a: string, b: string, pat: string, rep: string)
    requires |pat| > 0 && pat[0] !in a
    ensures Replace(a + b, pat, rep) == a + Replace(b, pat, rep)
    decreases |a|
  {
    if a != [] {
      var s := a + b;
      assert s[1..] == a[1..] + b;
      ReplaceAfterPlainPrefix(a[1..], b, pat, rep);
      if |s| < |pat| {
        assert Replace(b, pat, rep) == b;
      } else {
        assert s[..|pat|][0] == a[0] != pat[0];
        calc {
          Replace(s, pat, rep);
          [a[0]] + Replace(a[1..] + b, pat, rep);
          [a[0]] + (a[1..] + Replace(b, pat, rep));
          { assert [a[0]] + a[1..] == a; }
          a + Replace(b, pat, rep);
        }
      }
    } else {
      assert a + b == b;
    }
  }

  /** Replacing a character that does not occur leaves the text unchanged. */
  lemma {:induction false} ReplaceCharAbsent(s: string, c: char, rep: string)
    requires c !in s
    ensures Replace(s, [c], rep) == s
    decreases |s|
  {
    if s != [] {
      assert s[..1] != [c] && s == [s[0]] + s[1..];
      ReplaceCharAbsent(s[1..], c, rep);
    }
  }

  /** Replacing never introduces a character that neither the text nor the replacement holds. */
  lemma {:induction false} ReplaceKeepsAbsentChar(s: string, pat: string, rep: string, c: char)
    requires |pat| > 0 && c !in s && c !in rep
    ensures c !in Replace(s, pat, rep)
    decreases |s|
  {
    if |s| < |pat| {
    } else if s[..|pat|] == pat {
      ReplaceKeepsAbsentChar(s[|pat|..], pat, rep, c);
    } else {
      ReplaceKeepsAbsentChar(s[1..], pat, rep, c);
    }
  }

  /** Replacing a single character by text without it removes every occurrence of it. */
  lemma {:induction false} ReplaceCharRemovesIt(s: string, c: char, rep: string)
    requires c !in rep
    ensures c !in Replace(s, [c], rep)
    decreases |s|
  {
    if |s| >= 1 {
      if s[..1] == [c] {
        ReplaceCharRemovesIt(s[1..], c, rep);
      } else {
        assert s[0] != c;
        ReplaceCharRemovesIt(s[1..], c, rep);
      }
    }
  }

  /** Replacing a single character maps every character on its own:
      replacement distributes over concatenation. */
  lemma {:induction false} ReplaceCharConcat(a: string, b: string, c: char, rep: string)
    ensures Replace(a + b, [c], rep) == Replace(a, [c], rep) + Replace(b, [c], rep)
    decreases |a|
  {
    if a != [] {
      var s := a + b;
      assert s[..1] == a[..1];
      assert s[1..] == a[1..] + b;
      ReplaceCharConcat(a[1..], b, c, rep);
      var head := if a[..1] == [c] then rep else [a[0]];
      calc {
        Replace(s, [c], rep);
        head + Replace(a[1..] + b, [c], rep);
        head + (Replace(a[1..], [c], rep) + Replace(b, [c], rep));
        (head + Replace(a[1..], [c], rep)) + Replace(b, [c], rep);
        Replace(a, [c], rep) + Replace(b, [c], rep);
      }
    } else {
      assert a + b == b;
    }
  }

  /** The first character of a replacement result. */
  lemma ReplaceHead(s: string, pat: string, rep: string)
    requires |pat| > 0 && |rep| > 0 && |s| > 0
    ensures |Replace(s, pat, rep)| > 0
    ensures Replace(s, pat, rep)[0] == if |s| >= |pat| && s[..|pat|] == pat then rep[0] else s[0]
  {
  }

  /** After replacing the two-character pattern `pat` by a non-empty text
      that holds neither of its characters, the pattern no longer occurs:
      this is why `replace("; ", "<br/>")` leaves no "; " behind. */
  lemma {:induction false} ReplacePairRemovesIt(s: string, pat: string, rep: string)
    requires |pat| == 2 && |rep| > 0 && pat[0] !in rep && pat[1] !in rep
    ensures !Occurs(Replace(s, pat, rep), pat)
  {
    var r := Replace(s, pat, rep);
    ReplacePairNoAdjacent(s, pat, rep);
    forall i | 0 <= i <= |r| ensures !At(r, i, pat) {
      if i + 2 <= |r| {
        assert r[i..i + 2] == [r[i], r[i + 1]];
      }
    }
  }

  lemma {:induction false} ReplacePairNoAdjacent(s: string, pat: string, rep: string)
    requires |pat| == 2 && |rep| > 0 && pat[0] !in rep && pat[1] !in rep
    ensures forall i :: 0 <= i < |Replace(s, pat, rep)| - 1 ==>
      !(Replace(s, pat, rep)[i] == pat[0] && Replace(s, pat, rep)[i + 1] == pat[1])
    decreases |s|
  {
    var r := Replace(s, pat, rep);
    if |s| < 2 {
    } else if s[..2] == pat {
      var t := Replace(s[2..], pat, rep);
      ReplacePairNoAdjacent(s[2..], pat, rep);
      assert r == rep + t;
      forall i | 0 <= i < |r| - 1 ensures !(r[i] == pat[0] && r[i + 1] == pat[1]) {
        if i < |rep| {
          assert r[i] == rep[i];
        } else {
          assert r[i] == t[i - |rep|] && r[i + 1] == t[i + 1 - |rep|];
        }
      }
    } else {
      var t := Replace(s[1..], pat, rep);
      ReplacePairNoAdjacent(s[1..], pat, rep);
      assert r == [s[0]] + t;
      ReplaceHead(s[1..], pat, rep);
      assert t[0] == s[1] ==> s[0] != pat[0] || s[1] != pat[1] by {
        assert s[..2][0] == s[0] && s[..2][1] == s[1];
      }
      forall i | 0 <= i < |r| - 1 ensures !(r[i] == pat[0] && r[i + 1] == pat[1]) {
        if i > 0 {
          assert r[i] == t[i - 1] && r[i + 1] == t[i];
        }
      }
    }
  }

  /** Decimal digits of a natural number, as Python's `%s` prints an int. */
  function Decimal(n: nat): (r: string)
    ensures |r| > 0
    ensures forall i :: 0 <= i < |r| ==> '0' <= r[i] <= '9'
  {
    (if n < 10 then "" else Decimal(n / 10)) + [Digit(n % 10)]
  }

  function Digit(d: nat): (c: char)
    requires d < 10
    ensures '0' <= c <= '9'
  {
    ('0' as int + d) as char
  }

  /** Reads a decimal numeral back. */
  function ParseDecimal(s: string): nat
    requires forall i :: 0 <= i < |s| ==> '0' <= s[i] <= '9'
  {
    if s == [] then 0 else 10 * ParseDecimal(s[..|s| - 1]) + (s[|s| - 1] - '0') as nat
  }

  /** `%s` of a count: `0` for zero, and no leading zero otherwise. */
  lemma {:induction false} DecimalNoLeadingZero(n: nat)
    ensures n == 0 ==> Decimal(n) == "0"
    ensures n > 0 ==> Decimal(n)[0] != '0'
  {
    if n >= 10 {
      DecimalNoLeadingZero(n / 10);
      assert Decimal(n)[0] == Decimal(n / 10)[0];
    }
  }

  /** The decimal rendering is faithful: reading it back gives the number. */
  lemma {:induction false} DecimalRoundTrip(n: nat)
    ensures ParseDecimal(Decimal(n)) == n
  {
    var r := Decimal(n);
    var front := if n < 10 then "" else Decimal(n / 10);
    assert r[..|r| - 1] == front;
    assert (r[|r| - 1] - '0') as nat == n % 10;
    if n >= 10 {
      DecimalRoundTrip(n / 10);
    }
  }
}

=== FILE: utf8.dfy ===
/** UTF-8 encoding of text, so that a file's size is the length of its bytes
    (what `os.path.getsize` reports for a file written in UTF-8). */
module Utf8 {

  type byte = b: int | 0 <= b < 256

  /** A character is ASCII when it encodes to a single byte. */
  predicate IsAscii(c: char)
  {
    (c as int) < 0x80
  }

  /** The UTF-8 bytes of one Unicode scalar value. */
  function EncodeChar(c: char): (r: seq<byte>)
    ensures 1 <= |r| <= 4
    ensures |r| == 1 <==> IsAscii(c)
    ensures IsAscii(c) ==> r == [c as int]
  {
    var n := c as int;
    if n < 0x80 then [n]
    else if n < 0x800 then [0xC0 + n / 0x40, 0x80 + n % 0x40]
    else if n < 0x1_0000 then [0xE0 + n / 0x1000, 0x80 + (n / 0x40) % 0x40, 0x80 + n % 0x40]
    else [0xF0 + n / 0x4_0000, 0x80 + (n / 0x1000) % 0x40, 0x80 + (n / 0x40) % 0x40, 0x80 + n % 0x40]
  }

  /** The UTF-8 bytes of a text. */
  function Encode(s: string): (r: seq<byte>)
    ensures |r| >= |s|
    ensures (forall i :: 0 <= i < |s| ==> IsAscii(s[i])) ==> |r| == |s|
  {
    if s == [] then [] else EncodeChar(s[0]) + Encode(s[1..])
  }

  /** Encoding a concatenation concatenates the encodings. */
  lemma {:induction false} EncodeConcat(a: string, b: string)
    ensures Encode(a + b) == Encode(a) + Encode(b)
    decreases |a|
  {
    if a == [] {
      assert a + b == b;
    } else {
      assert (a + b)[1..] == a[1..] + b;
      EncodeConcat(a[1..], b);
    }
  }
}

=== FILE: wrappers.dfy ===
/** The Option type used for values a lookup may not find. */
module Wrappers {

  datatype Option<+T> = None | Some(value: T)
}

=== FILE: writer.dfy ===
/** `write_data`: the data file, as the sequence of lines written to it. */
module Writer {
  import opened Wrappers
  import opened Text
  import opened Html
  import opened Elements
  import opened Icons
  import opened Categories
  import opened Markers

  /** The loop `tags[k] = html.escape(tags[k])` over the keys of `tags`. */
  method EscapeTags(tags: Tags) returns (escaped: Tags)
    ensures escaped == EscapeValues(tags)
  {
    escaped := tags;
    var keys := tags.Keys;
    while keys != {}
      invariant keys <= tags.Keys
      invariant escaped.Keys == tags.Keys
      invariant forall k :: k in tags ==> escaped[k] == if k in keys then tags[k] else Escape(tags[k])
      decreases keys
    {
      var k :| k in keys;
      escaped := escaped[k := Escape(escaped[k])];
      keys := keys - {k};
    }
  }

  /** The marker line a rendered element contributes: one, or none when it is skipped. */
  function LineOf(marker: Option<Marker>): seq<string>
  {
    match marker
    case Some(m) => [m.line]
    case None => []
  }

  /** The marker lines of `elements`, in order. */
  function MarkerLines(elements: seq<Element>): seq<string>
  {
    if elements == [] then []
    else MarkerLines(elements[..|elements| - 1]) + LineOf(Render(elements[|elements| - 1]))
  }

  /** The five counters after `elements`: one bump per marker written. */
  function Tally(elements: seq<Element>): Counts
  {
    if elements == [] then NoCounts
    else
      var counts := Tally(elements[..|elements| - 1]);
      match Render(elements[|elements| - 1])
      case Some(m) => counts.Bump(m.category)
      case None => counts
  }

  /** The time stamp comment and the opening of `veggiemap_populate`. */
  function Header(stamp: string): seq<string>
  {
    ["// Created: " + stamp, "function veggiemap_populate(markers) {"]
  }

  /** The end of `veggiemap_populate` and the `numbers` object with the counts. */
  function Footer(c: Counts): seq<string>
  {
    [ "}",
      "let numbers = {",
      " n_vegan_only:" + Decimal(c.veganOnly) + ",",
      " n_vegetarian_only:" + Decimal(c.vegetarianOnly) + ",",
      " n_vegan_friendly:" + Decimal(c.veganFriendly) + ",",
      " n_vegan_limited:" + Decimal(c.veganLimited) + ",",
      " n_vegetarian_friendly:" + Decimal(c.vegetarianFriendly),
      "};" ]
  }

  /** The whole data file for `elements`. */
  function Document(stamp: string, elements: seq<Element>): seq<string>
  {
    Header(stamp) + MarkerLines(elements) + Footer(Tally(elements))
  }

  /** The body of `write_data`'s loop for one element: escape its tags,
      take its position (a node's own, a way's center), and when there is
      one build its marker line with icon, title, category and popup. */
  method WriteMarker(e: Element) returns (marker: Option<Marker>)
    ensures marker == Render(e)
  {
    var tags := EscapeTags(e.tags);
    var lat, lon := None, None;
    if e.kind == Node {
      lat, lon := e.lat, e.lon;
    } else if e.center.Some? {
      lat, lon := e.center.value.lat, e.center.value.lon;
    }
    if Falsy(lat) || Falsy(lon) {
      marker := None;
    } else {
      assert Position(e) == Some((lat.value, lon.value));
      var icon := DetermineIcon(tags, IconMapping);
      var name := DisplayName(icon.glyph, tags, e.kind, e.id);
      var title := Title(icon.glyph, tags, e.kind, e.id);
      var category;
      if Get(tags, "diet:vegan") == "only" {
        category := VeganOnly;
      } else if Get(tags, "diet:vegetarian") == "only" && Get(tags, "diet:vegan") == "yes" {
        category := VegetarianOnly;
      } else if Get(tags, "diet:vegan") == "yes" {
        category := VeganFriendly;
      } else if Get(tags, "diet:vegan") == "limited" {
        category := VeganLimited;
      } else {
        category := VegetarianFriendly;
      }
      var popup := Popup(name, e.kind, e.id, tags);
      RenderWhenPlaced(e, lat.value, lon.value);
      marker := Some(Marker(category, MarkerLine(lat.value, lon.value, title, icon, category, popup)));
    }
  }

  /** `write_data`: the header, one line per element that has a position,
      then the counts, tallied by five counters in the loop. */
  method WriteData(stamp: string, elements: seq<Element>) returns (lines: seq<string>)
    ensures lines == Document(stamp, elements)
  {
    var nVeganOnly, nVegetarianOnly, nVeganFriendly, nVeganLimited, nVegetarianFriendly := 0, 0, 0, 0, 0;
    lines := Header(stamp);
    var i := 0;
    while i < |elements|
      invariant i <= |elements|
      invariant lines == Header(stamp) + MarkerLines(elements[..i])
      invariant Counts(nVeganOnly, nVegetarianOnly, nVeganFriendly, nVeganLimited, nVegetarianFriendly)
                == Tally(elements[..i])
    {
      var marker := WriteMarker(elements[i]);
      LinesStep(stamp, elements, i, marker);
      TallyStep(elements, i, marker, nVeganOnly, nVegetarianOnly, nVeganFriendly, nVeganLimited, nVegetarianFriendly);
      if marker.Some? {
        match marker.value.category {
          case VeganOnly => nVeganOnly := nVeganOnly + 1;
          case VegetarianOnly => nVegetarianOnly := nVegetarianOnly + 1;
          case VeganFriendly => nVeganFriendly := nVeganFriendly + 1;
          case VeganLimited => nVeganLimited := nVeganLimited + 1;
          case VegetarianFriendly => nVegetarianFriendly := nVegetarianFriendly + 1;
        }
        lines := lines + [marker.value.line];
      }
      i := i + 1;
    }
    assert elements[..i] == elements;
    lines := lines + Footer(Counts(nVeganOnly, nVegetarianOnly, nVeganFriendly, nVeganLimited, nVegetarianFriendly));
  }

  lemma LinesStep(stamp: string, elements: seq<Element>, i: nat, marker: Option<Marker>)
    requires i < |elements| && marker == Render(elements[i])
    ensures marker.Some? ==>
      (Header(stamp) + MarkerLines(elements[..i + 1]) == Header(stamp) + MarkerLines(elements[..i]) + [marker.value.line])
    ensures marker.None? ==>
      (Header(stamp) + MarkerLines(elements[..i + 1]) == Header(stamp) + MarkerLines(elements[..i]))
  {
    MarkerLinesStep(elements, i);
  }

  lemma MarkerLinesStep(elements: seq<Element>, i: nat)
    requires i < |elements|
    ensures MarkerLines(elements[..i + 1]) == MarkerLines(elements[..i]) + LineOf(Render(elements[i]))
  {
    assert elements[..i + 1][..i] == elements[..i];
  }

  /** One element's effect on the five counters: a marker of a category
      bumps that category's counter and no other, a skipped element none. */
  lemma TallyStep(elements: seq<Element>, i: nat, marker: Option<Marker>,
                  vo: nat, vgo: nat, vf: nat, vl: nat, vgf: nat)
    requires i < |elements| && marker == Render(elements[i])
    requires Counts(vo, vgo, vf, vl, vgf) == Tally(elements[..i])
    ensures marker.None? ==> Tally(elements[..i + 1]) == Counts(vo, vgo, vf, vl, vgf)
    ensures marker.Some? && marker.value.category == VeganOnly ==>
      Tally(elements[..i + 1]) == Counts(vo + 1, vgo, vf, vl, vgf)
    ensures marker.Some? && marker.value.category == VegetarianOnly ==>
      Tally(elements[..i + 1]) == Counts(vo, vgo + 1, vf, vl, vgf)
    ensures marker.Some? && marker.value.category == VeganFriendly ==>
      Tally(elements[..i + 1]) == Counts(vo, vgo, vf + 1, vl, vgf)
    ensures marker.Some? && marker.value.category == VeganLimited ==>
      Tally(elements[..i + 1]) == Counts(vo, vgo, vf, vl + 1, vgf)
    ensures marker.Some? && marker.value.category == VegetarianFriendly ==>
      Tally(elements[..i + 1]) == Counts(vo, vgo, vf, vl, vgf + 1)
  {
    TallyBumps(elements, i, marker);
    if marker.Some? {
      BumpOneCounter(vo, vgo, vf, vl, vgf, marker.value.category);
    }
  }

  lemma TallyBumps(elements: seq<Element>, i: nat, marker: Option<Marker>)
    requires i < |elements| && marker == Render(elements[i])
    ensures marker.Some? ==> Tally(elements[..i + 1]) == Tally(elements[..i]).Bump(marker.value.category)
    ensures marker.None? ==> Tally(elements[..i + 1]) == Tally(elements[..i])
  {
    assert elements[..i + 1][..i] == elements[..i];
  }

  /** Bumping a category raises exactly that category's counter. */
  lemma BumpOneCounter(vo: nat, vgo: nat, vf: nat, vl: nat, vgf: nat, c: Category)
    ensures c == VeganOnly ==> Counts(vo, vgo, vf, vl, vgf).Bump(c) == Counts(vo + 1, vgo, vf, vl, vgf)
    ensures c == VegetarianOnly ==> Counts(vo, vgo, vf, vl, vgf).Bump(c) == Counts(vo, vgo + 1, vf, vl, vgf)
    ensures c == VeganFriendly ==> Counts(vo, vgo, vf, vl, vgf).Bump(c) == Counts(vo, vgo, vf + 1, vl, vgf)
    ensures c == VeganLimited ==> Counts(vo, vgo, vf, vl, vgf).Bump(c) == Counts(vo, vgo, vf, vl + 1, vgf)
    ensures c == VegetarianFriendly ==> Counts(vo, vgo, vf, vl, vgf).Bump(c) == Counts(vo, vgo, vf, vl, vgf + 1)
  {
  }

  /** The counts add up to the number of marker lines: every marker bumps
      exactly one counter, and a skipped element bumps none. */
  lemma {:induction false} CountsMatchMarkers(elements: seq<Element>)
    ensures |MarkerLines(elements)| == Tally(elements).Total()
  {
    if elements != [] {
      CountsMatchMarkers(elements[..|elements| - 1]);
    }
  }

  /** An element without a usable position leaves the lines and the counts as they were. */
  lemma SkippedElementLeavesNoTrace(elements: seq<Element>, e: Element)
    requires Position(e).None?
    ensures MarkerLines(elements + [e]) == MarkerLines(elements)
    ensures Tally(elements + [e]) == Tally(elements)
  {
    MarkerExactlyWhenPlaced(e);
    assert (elements + [e])[..|elements|] == elements;
  }

  /** An element with a position adds its line at the end and bumps the
      counter of its category, which its raw diet tags decide. */
  lemma RenderedElementAddsOneMarker(elements: seq<Element>, e: Element)
    requires Position(e).Some?
    ensures |MarkerLines(elements + [e])| == |MarkerLines(elements)| + 1
    ensures MarkerLines(elements + [e])[..|MarkerLines(elements)|] == MarkerLines(elements)
    ensures Tally(elements + [e]) == Tally(elements).Bump(Classify(e.tags))
  {
    var all := elements + [e];
    assert all[..|all| - 1] == elements && all[|all| - 1] == e;
    MarkerExactlyWhenPlaced(e);
    var m := Render(e).value;
    assert MarkerLines(all) == MarkerLines(elements) + [m.line];
    assert Tally(all) == Tally(elements).Bump(m.category);
  }
}
